=== FILE: README.md ===
# find-dangling-ptrs: a Dafny model of the analysis core

`find-dangling-ptrs.js` reads an allocation trace written by an instrumented
embedded program and a disassembly listing of the program's ELF image. It
then reports the blocks still allocated when the trace ends (the dangling
pointers), grouped by the call site that allocated them. For each call site
it prints the listing lines around the call. This project models the
analysis behind that report:

- **Ledger replay** (`startProcessing`, lines 76-126), in `events.dfy` and
  `ledger.dfy`. The log is split into lines. Only lines that start with `#`
  are kept. Each kept line is cut at `:`, `;` and `-` and decoded into a
  malloc, calloc, free or realloc event. The events are folded, in order,
  into a map from pointer to `{call site, size}`, a running byte total, and a
  list of warnings. The warnings are returned as data rather than printed.
- **Leak grouping** (lines 134-148), in `grouping.dfy`. The live blocks are
  filed by call site, and each group gets a byte total.
- **Context lookup** (`findLineInCode`, lines 159-194), in `listing.dfy`.
  The call-site address is decoded and decremented. It is then re-encoded as
  the lower-case hexadecimal search key and looked up in the listing. The ten
  nearest non-label lines on each side are collected, and the one just
  before the call is marked.
- **Conversions** (`text.dfy`, `numbers.dfy`). The JavaScript string and
  number conversions the analysis depends on:
  - `split` and the `\s` class;
  - `Number(s)`, including the white-space strip it applies to its argument;
  - `parseInt(s, 16)`;
  - `n.toString(16)`.
- **Example traces** (`scenarios.dfy`). Three example traces are proved end
  to end, from log text to ledger.

Some JavaScript values are represented by plain Dafny values:

- **`NaN`.** It is `None` in an `Option<int>`. This holds for sizes and for
  the running total. A `NaN` total stays `NaN`.
- **A missing field.** A field past the end of a line is `undefined` in
  JavaScript. It is modelled as the string `"undefined"`, which behaves the
  same way everywhere the source uses it: as an object key, in `!== '0x0'`,
  and in `Number(...)`.
- **Object-key order.** The order of `Object.keys(allocs)` is an explicit
  parameter `keys` that lists every live pointer once.

## Model

| member | source | states |
|---|---|---|
| `Text.SplitJoin` | find-dangling-ptrs.js:76 | Splitting the log at line feeds loses nothing: joining the pieces with line feeds gives the log back. |
| `Text.SplitOn` | find-dangling-ptrs.js:84 | `split` on the delimiter set always returns at least one piece, and no piece contains a delimiter. |
| `Text.SplitOnAppend` | find-dangling-ptrs.js:84 | Splitting a string that has a delimiter between two parts gives the pieces of the first part followed by the pieces of the second. |
| `Events.Retain` | find-dangling-ptrs.js:76 | Only non-empty lines whose first character is `#` are kept. Every such line of the log is kept, every kept line is a line of the log, and no kept line lacks the `#`. |
| `Events.RetainAppend` | find-dangling-ptrs.js:76 | Filtering two runs of lines one after the other is filtering their concatenation, so the kept lines stay in log order and a line that occurs twice is kept twice. |
| `Events.ParseLine` | find-dangling-ptrs.js:82-112 | A line decodes to a malloc, calloc, free or realloc exactly when it starts with `#m:`, `#c:`, `#f:` or `#r:`, as the `indexOf(..) === 0` tests pick the branch. Any other line is inert. Its fields are read back by `Events.ParseFormat`. |
| `Events.ParseFormat` | find-dangling-ptrs.js:82-112 | Decoding the trace line written for any malloc, calloc, free or realloc event gives back the same event, with the fields read from the positions lines 84, 93, 102 and 112 use. |
| `Events.ParseLog` | find-dangling-ptrs.js:76-112 | Decoding a whole written trace gives back its events, in order. |
| `Numbers.ToNumber` | find-dangling-ptrs.js:85 | `Number` of an empty or all-white-space field, such as an empty size field (`#m:0x1:0x2:`), is 0, not `NaN`. |
| `Events.MissingSizeIsNaN` | find-dangling-ptrs.js:84-85 | A size past the end of the line (`#m:0x1:0x2`) is `undefined` and reads as `NaN`, while an empty size field (`#m:0x1:0x2:`) reads as 0. |
| `Numbers.DigitsToNumber` | find-dangling-ptrs.js:85 | `Number` reads any non-empty run of decimal digits, leading zeros included, as its value. |
| `Numbers.DecimalToNumber` | find-dangling-ptrs.js:85 | `Number` reads back every numeral that `toString` writes for a non-negative integer (no sign, no leading zero, no surrounding white space) as its value. |
| `Numbers.ParseIntHex` | find-dangling-ptrs.js:162 | `parseInt(.., 16)` of an empty or all-white-space string is `NaN`. |
| `Numbers.IntToHex` | find-dangling-ptrs.js:162 | `toString(16)` writes a minus sign exactly for a negative number, and otherwise only lower-case hexadecimal digits, so the `toLowerCase` that follows changes nothing. |
| `Numbers.HexRoundTrip` | find-dangling-ptrs.js:162 | `parseInt(.., 16)` reads back what `toString(16)` wrote, for every integer, negative ones included. |
| `Ledger.Insert` | find-dangling-ptrs.js:85-89 | Recording a block binds its pointer to it and leaves every other key and the warnings alone. The total grows by the size when that is a number, and a `NaN` total stays `NaN`. |
| `Ledger.InsertKeepsTotal` | find-dangling-ptrs.js:85-89 | Recording a block at a pointer that is not live keeps `totalSize` equal to the sum of the live sizes. |
| `Ledger.Release` | find-dangling-ptrs.js:103-106 | Dropping a live block removes exactly its key and keeps the other blocks and the warnings. Its size is subtracted unconditionally, so the total becomes `NaN` when the size is `NaN`. |
| `Ledger.ReleaseKeepsTotal` | find-dangling-ptrs.js:103-106 | Dropping a live block whose size is a number keeps `totalSize` equal to the sum of the live sizes. |
| `Ledger.Step` | find-dangling-ptrs.js:82-125 | Malloc binds the pointer to `{loc, size}`, and calloc binds it to `{loc, size * items}`. In both cases every other key is unchanged. Free of a tracked pointer removes exactly that key. Free of an untracked pointer changes neither the map nor the total, and warns exactly when the pointer is not `0x0`. Realloc always binds the new pointer to `{loc, size}` and removes the old pointer when it differs from the new one. It keeps every other key and warns exactly when the old pointer was untracked and is not `0x0`. Any other `#` line changes nothing. |
| `Ledger.Replay` | find-dangling-ptrs.js:81-126 | Every block live after the loop was live before it or was stored by one of the events (malloc, calloc or the new pointer of a realloc). Each event adds at most one warning. |
| `Ledger.Analyze` | find-dangling-ptrs.js:75-126 | Every pointer still live at the end of a log was stored by one of its event lines, and there are no more warnings than event lines. |
| `Ledger.ReplayKeepsWarnings` | find-dangling-ptrs.js:108-118 | Warnings only accumulate during the replay. None is ever withdrawn. |
| `Ledger.ReplayAppend` | find-dangling-ptrs.js:81-126 | Replaying two traces one after the other is the same as replaying their concatenation. |
| `Ledger.NonEventLineIsInert` | find-dangling-ptrs.js:76 | Inserting a line that is empty or does not start with `#` between two lines of the log leaves the analysis unchanged. |
| `Ledger.NonEventFirstLineIsInert` | find-dangling-ptrs.js:76 | Such a line placed first in the log, like output of the traced program itself, leaves the analysis unchanged. |
| `Ledger.NonEventLastLineIsInert` | find-dangling-ptrs.js:76 | Such a line placed last in the log leaves the analysis unchanged. |
| `Ledger.UnknownMarkerIsInert` | find-dangling-ptrs.js:82-111 | A `#` line that has none of the prefixes `#m:`, `#c:`, `#f:` or `#r:` leaves the state unchanged. |
| `Ledger.MallocThenFree` | find-dangling-ptrs.js:84-109 | Mallocing a pointer that is not live and then freeing it restores the map and the warnings. It also restores the total when the size is a number. |
| `Ledger.MallocFreePairsLeaveNothing` | find-dangling-ptrs.js:81-126 | Any run of malloc/free pairs on the same pointer, replayed from an empty ledger, ends empty and raises no warning. |
| `Ledger.StepKeepsTotal` | find-dangling-ptrs.js:82-125 | One event keeps `totalSize` equal to the sum of the live sizes, provided it allocates over no live pointer and releases no block of `NaN` size. |
| `Ledger.ReplayKeepsTotal` | find-dangling-ptrs.js:79-126 | Across a whole run of such events, `totalSize` stays equal to the sum of the live sizes. |
| `Ledger.AnalyzeTotal` | find-dangling-ptrs.js:75-129 | For a whole log whose events are all of that kind, the reported byte total is the sum of the sizes of the dangling blocks. |
| `Ledger.SumLiveRemove` | find-dangling-ptrs.js:104 | The live sum can take out any one live block first. This is why subtracting a freed block's size keeps the total right. |
| `Ledger.StepAsWritten` | find-dangling-ptrs.js:111-119 | As written, a step throws exactly when it is a realloc whose old pointer is untracked. Otherwise it gives the same state as `Step`. |
| `Ledger.ReallocOfUntrackedThrows` | find-dangling-ptrs.js:117 | As written, `realloc(NULL, 128)` and a realloc from an untracked pointer both abort the run. The intended step records the new block, and it warns only in the second case. |
| `Grouping.AddEntry` | find-dangling-ptrs.js:138-141 | A pointer joins the existing group of its call site. A group is opened after the existing ones only when there is none yet. Call sites stay distinct, and first-seen order is kept. |
| `Grouping.Dedupe` | find-dangling-ptrs.js:134-143 | The groups have distinct call sites, and none is empty. Every entry sits in the group of its own call site and carries its own size. The entries are the enumerated pointers, rearranged. |
| `Grouping.GroupsPartitionLedger` | find-dangling-ptrs.js:134-143 | Every live pointer appears exactly once across all groups, in the group of its own call site. No other pointer appears. The group lengths add up to the number of dangling pointers. |
| `Grouping.GroupTotal` | find-dangling-ptrs.js:148 | A group total is a number exactly when every member size is a number. It is then the sum of the member sizes. |
| `Grouping.SumKeysIsSumLive` | find-dangling-ptrs.js:134-143 | Adding the sizes in any enumeration order of the live pointers gives the sum over the ledger. |
| `Grouping.GroupTotalsAddUp` | find-dangling-ptrs.js:129-148 | The group sums add up to the sum over the ledger. When `totalSize` tracked the live sizes, they add up to the total the report prints. |
| `Listing.IsLabel` | find-dangling-ptrs.js:160 | The label test used to skip address lines. `Listing.IsLabelMeansPattern` states what it accepts. |
| `Listing.MatchesKey` | find-dangling-ptrs.js:164 | The test for the line of the call. `Listing.MatchesKeyMeansPattern` states what it accepts. |
| `Listing.IsLabelMeansPattern` | find-dangling-ptrs.js:160 | The explicit label test holds exactly when the line matches `^\s+[0-9a-f]{4,6}:` read literally. |
| `Listing.MatchesKeyMeansPattern` | find-dangling-ptrs.js:164 | The explicit key test holds exactly when the line matches `^\s+<key>:` read literally. |
| `Listing.SearchKey` | find-dangling-ptrs.js:162 | The key is never empty, does not start with white space, and holds only lower-case hexadecimal digits, `-` and the `n` of `nan`. None of these is special in a regular expression, so line 164 matches the key literally. |
| `Listing.SearchKeyOfDigits` | find-dangling-ptrs.js:162 | A call site whose text after its first two characters (`0x` in a trace) is any run of hex digits, upper-case or zero-padded, is looked up under the lower-case hex of its value minus one, without leading zeros. For example, `0x00008001` gives `8000` and `0x8A01` gives `8a00`. |
| `Numbers.ParseIntHexDigits` | find-dangling-ptrs.js:162 | `parseInt(.., 16)` reads any non-empty run of hex digits, either case and leading zeros included, as its value. |
| `Listing.SearchKeyOfAddress` | find-dangling-ptrs.js:162 | The call site `0x` followed by the hex of `n + 1` is looked up under the plain lower-case hex of `n`, with no leading zeros. |
| `Listing.FindIndexFrom` | find-dangling-ptrs.js:166 | The result is the first line that matches the key, or -1 exactly when no line matches. |
| `Listing.NonLabelBetweenSpec` | find-dangling-ptrs.js:172-190 | The lines a scan may collect are exactly the non-label lines of the range. Each appears once, in listing order. |
| `Listing.LinesBetweenPick` | find-dangling-ptrs.js:170-191 | The lines a scan collects over a range are the lines at the non-label indices of that range, in order, each behind the same prefix. |
| `Listing.MarkLast` | find-dangling-ptrs.js:179-181 | Every line before the call is indented by four spaces, except the last, whose indentation is replaced by `>>> `. No line is added or lost. |
| `Listing.CollectBefore` | find-dangling-ptrs.js:170-178 | The backward scan returns the ten nearest non-label lines above the matched line, in listing order. |
| `Listing.CollectAfter` | find-dangling-ptrs.js:183-191 | The forward scan returns the ten nearest non-label lines below the matched line, nearest first, each indented by four spaces. |
| `Listing.FindLineInCode` | find-dangling-ptrs.js:159-194 | When the key is found with ten non-label lines on each side, the result has exactly 20 lines: the ten before, then the ten after. The matched line and all labels are skipped. Line 9 carries `>>> ` and every other line carries four spaces. |
| `Listing.CollectBeforeClamped` | find-dangling-ptrs.js:170-178 | Corrected backward scan. It stops at the top of the listing and returns the nearest `min(10, available)` non-label lines above the match. |
| `Listing.CollectAfterClamped` | find-dangling-ptrs.js:183-191 | Corrected forward scan. It stops at the end of the listing and returns the nearest `min(10, available)` non-label lines below the match. |
| `Listing.FindLineInCodeClamped` | find-dangling-ptrs.js:159-194 | Corrected lookup. A key that is not found gives no lines. Otherwise it returns up to ten lines on each side, with the last line before the call marked. Wherever the original is well defined, it returns the same 20 lines. |
| `Listing.ForwardScanAsWritten` | find-dangling-ptrs.js:183-191 | The forward scan as written, run for a bounded number of iterations. Once its index is past the end of the listing it never returns. When it does return with a non-negative count to find, it has collected exactly that many lines, each indented by four spaces. |
| `Listing.ForwardScanPastEndNeverStops` | find-dangling-ptrs.js:185-191 | As written, a forward scan past the end of the listing that still needs lines never finishes, for any number of iterations. |
| `Listing.LastLineMatchNeverStops` | find-dangling-ptrs.js:162-185 | Call site `0x8001` resolves to line 0 of the one-line listing `    8000:\tbx\tlr`, its last line. As written, the forward scan from there loops forever, while the corrected scan finds no line after it. |
| `Scenarios.FreedBlockIsNotALeak` | find-dangling-ptrs.js:82-109 | The log `#m:0x1000:0x2004:64`, `#f:0:0x2010:0x1000` leaves an empty ledger, a total of 0 and no warning. |
| `Scenarios.TwoLeaksOneCallSite` | find-dangling-ptrs.js:82-90 | Two mallocs from call site `0x2004` leave two live blocks totalling 96 bytes. |
| `Scenarios.TwoLeaksGrouped` | find-dangling-ptrs.js:134-148 | Those two blocks form a single group for `0x2004`, with a total of 96. |
| `Scenarios.ReallocFromUntracked` | find-dangling-ptrs.js:111-125 | With the corrected realloc step (`Ledger.Step`), a realloc from the untracked `0x1000` warns and leaves `0x3000` live at call site `0x2020` with 128 bytes. As written, line 117 aborts this run with a `ReferenceError` instead (`Ledger.ReallocOfUntrackedThrows`). |

## Findings

| source | as written | input that shows it | evidently intended | confidence | as-written member | corrected member |
|---|---|---|---|---|---|---|
| find-dangling-ptrs.js:117 | The realloc branch tests `ptr !== '0x0'`, but `ptr` is not declared in that block or in any enclosing scope. When the old pointer is untracked, evaluating it throws a `ReferenceError` that ends the analysis. | `#r:0x3000:0x2020:0x0:128`, which is `realloc(NULL, 128)`, on an empty ledger | `old_ptr !== '0x0'`: warn about an untracked non-null old pointer, then record the new block | high (not executed) | `Ledger.StepAsWritten`, shown by `Ledger.ReallocOfUntrackedThrows` | `Ledger.Step` (realloc case) |
| find-dangling-ptrs.js:185 | The forward scan has no bound. Its guard `linesToFindBelow > 0 \|\| currLineIx > symbolLines.length` stays true once the index passes the end, so the loop never stops. The backward scan at line 172 likewise reads before index 0. | A listing whose only line is `    8000:\tbx\tlr`, looked up for call site `0x8001` | Stop both scans at the ends of the listing, and stop with no context when the address is not found | high (not executed) | `Listing.ForwardScanAsWritten`, shown by `Listing.LastLineMatchNeverStops` | `Listing.FindLineInCodeClamped` (`Listing.CollectAfterClamped`, `Listing.CollectBeforeClamped`) |

Outside the `...Clamped` members (`Listing.FindLineInCodeClamped`,
`Listing.ContextAtClamped`, `Listing.CollectBeforeClamped` and
`Listing.CollectAfterClamped`), `Listing.FindLineInCode` models the
original scans exactly. Its precondition `Listing.Resolvable` requires that
the key is found and that ten non-label lines exist on each side of the
match, which is where the original is well defined.

## Left out

- Argument handling and the `.elf` extension swap (lines 13-27) are command-line plumbing.
- The stdin buffering and ready-flag handshake (lines 29-46) are input handling. Line 35 prepends each chunk, which reverses chunk order; that is also input handling and is not modelled.
- Running `arm-none-eabi-objdump` and checking its exit status (lines 48-66) are an external process. The listing is a parameter.
- Reading the log file (line 69) is file input. The log text is a parameter.
- All console output (lines 108, 118, 128-129, 150-155) is left out. Warnings are returned as a list, and the report text is not produced.
- The printed order of groups follows `Object.keys(deduped)`. `Grouping.AddEntry` keeps first-seen order, but nothing beyond that is stated about output order.
- `Object.keys` lists integer-like keys first. Logged pointers start with `0x`, so they never are integer-like. Key order is taken as an explicit parameter.
- Plain-object prototype keys such as `__proto__` or `constructor` are not modelled. `allocs[ptr]` truthiness (lines 103 and 113) is treated as map membership. `curr[loc]` (lines 138-141) is treated as a fresh group, although for a call site such as `constructor` the original finds an inherited function and `curr[loc].push` throws.
- Numbers are unbounded integers. Double-precision rounding of very large sizes and addresses is not modelled.
- `Numbers.ToNumber`: models `Number` for surrounding white space, the empty string (0), signed decimal integers and `0x` hexadecimal. Fractions, exponents, `Infinity`, and `0o`/`0b` literals are treated as `NaN`, where JavaScript would give a number.
- `Numbers.ParseIntHex`: models `parseInt(s, 16)` with unbounded integers. Inputs with so many digits that JavaScript returns `Infinity` are not modelled.
- Strings are sequences of Unicode scalar values, not UTF-16 code units. Surrogate pairs are not modelled.
- Group totals follow line 148: a group with a `NaN` member size has a `NaN` total. Such sizes are not counted as 0.
- The original's behaviour when the address is not found (line 166 returns -1, which is then used as an index) is not reproduced. Neither are its reads of `undefined` before the first line. `Listing.FindLineInCode` requires a resolvable address, and `Listing.FindLineInCodeClamped` defines the miss as an empty context.

=== FILE: events.dfy ===
/** The allocation trace: which lines of the log are events, how an event
    line is cut into fields, and what each of the four event kinds carries. */
module Events {
  import opened Wrappers
  import opened Text
  import opened Numbers

  /** Fields of an event line are separated by any of these characters. */
  const FieldDelimiters: set<char> := {':', ';', '-'}

  /** A field past the end of a line is JavaScript's `undefined`; wherever
      the analyser uses such a field (as an object key, in `!==` against a
      string, or through `Number`) it behaves exactly like this string. */
  const Undefined: string := "undefined"

  /** The pointer value a traced program logs for a null pointer. */
  const NullPointer: string := "0x0"

  /** One line of the trace, decoded. Sizes are `None` where `Number`
      would give `NaN`. */
  datatype Event =
    | Malloc(ptr: string, loc: string, size: Option<int>)
    | Calloc(ptr: string, loc: string, size: Option<int>, items: Option<int>)
    | Free(ret: string, loc: string, ptr: string)
    | Realloc(newPtr: string, loc: string, oldPtr: string, size: Option<int>)
    | Unknown

  /** A line takes part in the replay only when it is non-empty and its
      first character is `#`. */
  predicate IsEventLine(l: string) {
    |l| > 0 && l[0] == '#'
  }

  /** The lines of the log, split on line feeds, that are event lines, in
      order. */
  function Retain(ls: seq<string>): (r: seq<string>)
    ensures |r| <= |ls|
    ensures forall i :: 0 <= i < |r| ==> IsEventLine(r[i])
    ensures forall i :: 0 <= i < |ls| && IsEventLine(ls[i]) ==> ls[i] in r
    ensures forall i :: 0 <= i < |r| ==> r[i] in ls
    decreases |ls|
  {
    if |ls| == 0 then []
    else (if IsEventLine(ls[0]) then [ls[0]] else []) + Retain(ls[1..])
  }

  /** Filtering distributes over concatenation, so kept lines stay in log
      order and keep their multiplicity. */
  lemma {:induction false} RetainAppend(a: seq<string>, b: seq<string>)
    ensures Retain(a + b) == Retain(a) + Retain(b)
    decreases |a|
  {
    if |a| == 0 {
      assert a + b == b;
    } else {
      assert (a + b)[1..] == a[1..] + b;
      RetainAppend(a[1..], b);
    }
  }

  function EventLines(log: string): seq<string> {
    Retain(SplitOn(log, {'\n'}))
  }

  /** Field `i` of a tokenised line, or `undefined` past its end. */
  function Field(fields: seq<string>, i: nat): string {
    if i < |fields| then fields[i] else Undefined
  }

  /** The event a retained line stands for. The kind is chosen by the
      line's first three characters; the whole line, marker included, is
      then cut at every delimiter and the fields are read by position. */
  function ParseLine(l: string): (e: Event)
    ensures e.Malloc? <==> StartsWith(l, "#m:")
    ensures e.Calloc? <==> StartsWith(l, "#c:")
    ensures e.Free? <==> StartsWith(l, "#f:")
    ensures e.Realloc? <==> StartsWith(l, "#r:")
  {
    var f := SplitOn(l, FieldDelimiters);
    if StartsWith(l, "#m:") then
      Malloc(Field(f, 1), Field(f, 2), ToNumber(Field(f, 3)))
    else if StartsWith(l, "#c:") then
      Calloc(Field(f, 1), Field(f, 2), ToNumber(Field(f, 3)), ToNumber(Field(f, 4)))
    else if StartsWith(l, "#f:") then
      Free(Field(f, 1), Field(f, 2), Field(f, 3))
    else if StartsWith(l, "#r:") then
      Realloc(Field(f, 1), Field(f, 2), Field(f, 3), ToNumber(Field(f, 4)))
    else Unknown
  }

  /** The events of a whole log, in log order. */
  function Parse(log: string): (es: seq<Event>)
    ensures |es| == |EventLines(log)|
  {
    var ls := EventLines(log);
    seq(|ls|, i requires 0 <= i < |ls| => ParseLine(ls[i]))
  }

  /** A field the tracer can write without it being split further. */
  predicate PlainField(s: string) {
    NoneIn(s, FieldDelimiters) && '\n' !in s
  }

  predicate Count(size: Option<int>) {
    size.Some? && size.value >= 0
  }

  /** Events the tracer can produce: plain fields and non-negative sizes. */
  predicate Writable(e: Event) {
    match e
    case Malloc(p, loc, size) => PlainField(p) && PlainField(loc) && Count(size)
    case Calloc(p, loc, size, items) =>
      PlainField(p) && PlainField(loc) && Count(size) && Count(items)
    case Free(ret, loc, p) => PlainField(ret) && PlainField(loc) && PlainField(p)
    case Realloc(np, loc, op, size) =>
      PlainField(np) && PlainField(loc) && PlainField(op) && Count(size)
    case Unknown => false
  }

  /** The trace line for an event, in the log grammar
      `#m:<ptr>:<callsite>:<size>`, `#c:<ptr>:<callsite>:<size>:<items>`,
      `#f:<retval>:<callsite>:<ptr>`, `#r:<newptr>:<callsite>:<oldptr>:<size>`. */
  function Format(e: Event): (l: string)
    requires Writable(e)
    ensures IsEventLine(l) && '\n' !in l
  {
    var fields := match e
      case Malloc(p, loc, size) => ["#m", p, loc, ToDigits(size.value, 10)]
      case Calloc(p, loc, size, items) =>
        ["#c", p, loc, ToDigits(size.value, 10), ToDigits(items.value, 10)]
      case Free(ret, loc, p) => ["#f", ret, loc, p]
      case Realloc(np, loc, op, size) => ["#r", np, loc, op, ToDigits(size.value, 10)];
    JoinNoNewline(fields);
    Join(fields, ':')
  }

  lemma {:induction false} JoinNoNewline(fs: seq<string>)
    requires |fs| >= 1
    requires forall i :: 0 <= i < |fs| ==> '\n' !in fs[i]
    ensures '\n' !in Join(fs, ':')
    decreases |fs|
  {
    if |fs| > 1 {
      JoinNoNewline(fs[1..]);
    }
  }

  /** Cutting joined plain fields at the delimiters gives the fields back. */
  lemma {:induction false} SplitJoinedFields(fs: seq<string>)
    requires |fs| >= 1
    requires forall i :: 0 <= i < |fs| ==> NoneIn(fs[i], FieldDelimiters)
    ensures SplitOn(Join(fs, ':'), FieldDelimiters) == fs
    decreases |fs|
  {
    if |fs| == 1 {
      SplitOnNone(fs[0], FieldDelimiters);
    } else {
      SplitJoinedFields(fs[1..]);
      SplitOnAppend(fs[0], ':', Join(fs[1..], ':'), FieldDelimiters);
      SplitOnNone(fs[0], FieldDelimiters);
    }
  }

  /** `Number(undefined)` is `NaN`. */
  lemma UndefinedIsNaN()
    ensures ToNumber(Undefined) == None
  {
    TrimUnpadded(Undefined);
    assert !IsDecDigit(Undefined[0]);
  }

  lemma ShortMallocFields()
    ensures SplitOn("#m:0x1:0x2", FieldDelimiters) == ["#m", "0x1", "0x2"]
  {
    var fs := ["#m", "0x1", "0x2"];
    assert Join(fs, ':') == "#m:0x1:0x2";
    SplitJoinedFields(fs);
  }

  lemma EmptySizeFields()
    ensures SplitOn("#m:0x1:0x2:", FieldDelimiters) == ["#m", "0x1", "0x2", ""]
  {
    var fs := ["#m", "0x1", "0x2", ""];
    assert Join(fs, ':') == "#m:0x1:0x2:";
    SplitJoinedFields(fs);
  }

  lemma ShortMallocSize()
    ensures ParseLine("#m:0x1:0x2").Malloc? && ParseLine("#m:0x1:0x2").size == None
  {
    var l := "#m:0x1:0x2";
    assert StartsWith(l, "#m:") by { assert l[..3] == "#m:"; }
    ShortMallocFields();
    assert Field(SplitOn(l, FieldDelimiters), 3) == Undefined;
    UndefinedIsNaN();
  }

  lemma EmptyMallocSize()
    ensures ParseLine("#m:0x1:0x2:").Malloc? && ParseLine("#m:0x1:0x2:").size == Some(0)
  {
    var l := "#m:0x1:0x2:";
    assert StartsWith(l, "#m:") by { assert l[..3] == "#m:"; }
    EmptySizeFields();
    assert Field(SplitOn(l, FieldDelimiters), 3) == "";
    assert AllSpace("");
  }

  /** A size past the end of the line is `undefined`, which `Number` reads
      as `NaN`; an empty size field reads as 0. */
  lemma MissingSizeIsNaN()
    ensures ParseLine("#m:0x1:0x2").Malloc? && ParseLine("#m:0x1:0x2").size == None
    ensures ParseLine("#m:0x1:0x2:").Malloc? && ParseLine("#m:0x1:0x2:").size == Some(0)
  {
    ShortMallocSize();
    EmptyMallocSize();
  }

  lemma DigitsArePlain(n: nat)
    ensures PlainField(ToDigits(n, 10))
  {
  }

  /** Decoding the line written for an event gives the event back. */
  lemma ParseFormat(e: Event)
    requires Writable(e)
    ensures ParseLine(Format(e)) == e
  {
    match e
    case Malloc(p, loc, size) => ParseFormatMalloc(p, loc, size);
    case Calloc(p, loc, size, items) => ParseFormatCalloc(p, loc, size, items);
    case Free(ret, loc, p) => ParseFormatFree(ret, loc, p);
    case Realloc(np, loc, op, size) => ParseFormatRealloc(np, loc, op, size);
  }

  lemma ParseFormatMalloc(p: string, loc: string, size: Option<int>)
    requires Writable(Malloc(p, loc, size))
    ensures ParseLine(Format(Malloc(p, loc, size))) == Malloc(p, loc, size)
  {
    var l := Format(Malloc(p, loc, size));
    var fs := ["#m", p, loc, ToDigits(size.value, 10)];
    assert l == Join(fs, ':');
    DigitsArePlain(size.value);
    SplitJoinedFields(fs);
    DecimalToNumber(size.value);
    assert l[..3] == "#m:";
  }

  lemma ParseFormatCalloc(p: string, loc: string, size: Option<int>, items: Option<int>)
    requires Writable(Calloc(p, loc, size, items))
    ensures ParseLine(Format(Calloc(p, loc, size, items))) == Calloc(p, loc, size, items)
  {
    var l := Format(Calloc(p, loc, size, items));
    var fs := ["#c", p, loc, ToDigits(size.value, 10), ToDigits(items.value, 10)];
    assert l == Join(fs, ':');
    DigitsArePlain(size.value);
    DigitsArePlain(items.value);
    SplitJoinedFields(fs);
    DecimalToNumber(size.value);
    DecimalToNumber(items.value);
    assert l[..3] == "#c:";
  }

  lemma ParseFormatFree(ret: string, loc: string, p: string)
    requires Writable(Free(ret, loc, p))
    ensures ParseLine(Format(Free(ret, loc, p))) == Free(ret, loc, p)
  {
    var l := Format(Free(ret, loc, p));
    var fs := ["#f", ret, loc, p];
    assert l == Join(fs, ':');
    SplitJoinedFields(fs);
    assert l[..3] == "#f:";
  }

  lemma ParseFormatRealloc(np: string, loc: string, op: string, size: Option<int>)
    requires Writable(Realloc(np, loc, op, size))
    ensures ParseLine(Format(Realloc(np, loc, op, size))) == Realloc(np, loc, op, size)
  {
    var l := Format(Realloc(np, loc, op, size));
    var fs := ["#r", np, loc, op, ToDigits(size.value, 10)];
    assert l == Join(fs, ':');
    DigitsArePlain(size.value);
    SplitJoinedFields(fs);
    DecimalToNumber(size.value);
    assert l[..3] == "#r:";
  }

  /** A whole trace: each event on its own line, every line terminated. */
  function Log(es: seq<Event>): (log: string)
    requires forall i :: 0 <= i < |es| ==> Writable(es[i])
    decreases |es|
  {
    if |es| == 0 then "" else Format(es[0]) + "\n" + Log(es[1..])
  }

  /** Decoding a written trace gives its events back, in order. */
  lemma {:induction false} ParseLog(es: seq<Event>)
    requires forall i :: 0 <= i < |es| ==> Writable(es[i])
    ensures Parse(Log(es)) == es
  {
    LogLines(es);
    forall i | 0 <= i < |es|
      ensures Parse(Log(es))[i] == es[i]
    {
      ParseFormat(es[i]);
    }
  }

  lemma {:induction false} LogLines(es: seq<Event>)
    requires forall i :: 0 <= i < |es| ==> Writable(es[i])
    ensures |EventLines(Log(es))| == |es|
    ensures forall i :: 0 <= i < |es| ==> EventLines(Log(es))[i] == Format(es[i])
    decreases |es|
  {
    if |es| > 0 {
      var l := Format(es[0]);
      var nl: set<char> := {'\n'};
      LogLines(es[1..]);
      assert Log(es) == l + ['\n'] + Log(es[1..]);
      SplitOnAppend(l, '\n', Log(es[1..]), nl);
      SplitOnNone(l, nl);
      RetainAppend([l], SplitOn(Log(es[1..]), nl));
      assert EventLines(Log(es)) == [l] + EventLines(Log(es[1..]));
    } else {
      assert SplitOn("", {'\n'}) == [""];
    }
  }
}

=== FILE: grouping.dfy ===
/** Leak grouping: the live blocks left at the end of the trace, gathered by
    the call site that allocated them, with a byte total per call site. */
module Grouping {
  import opened Wrappers
  import opened Ledger

  /** One dangling pointer as the report lists it. */
  datatype Entry = Entry(ptr: string, size: Option<int>)

  /** The dangling pointers allocated at one call site, in the order the
      pointers were enumerated. */
  datatype Group = Group(loc: string, entries: seq<Entry>)

  /** `keys` lists every pointer of the ledger exactly once; it stands for
      the enumeration order of `Object.keys(allocs)`. */
  predicate Enumerates(keys: seq<string>, allocs: Allocs) {
    && (forall i, j :: 0 <= i < j < |keys| ==> keys[i] != keys[j])
    && (forall k :: k in allocs ==> k in keys)
    && (forall i :: 0 <= i < |keys| ==> keys[i] in allocs)
  }

  predicate DistinctLocs(gs: seq<Group>) {
    forall i, j :: 0 <= i < j < |gs| ==> gs[i].loc != gs[j].loc
  }

  /** Appending `e` to the group of `loc`, or opening that group after the
      existing ones when there is none yet. */
  function AddEntry(gs: seq<Group>, loc: string, e: Entry): (r: seq<Group>)
    requires DistinctLocs(gs)
    ensures DistinctLocs(r)
    ensures |r| == |gs| || |r| == |gs| + 1
    ensures forall i :: 0 <= i < |gs| ==>
      r[i].loc == gs[i].loc && r[i].entries == gs[i].entries + (if gs[i].loc == loc then [e] else [])
    ensures |r| == |gs| + 1 <==> forall i :: 0 <= i < |gs| ==> gs[i].loc != loc
    ensures |r| == |gs| + 1 ==> r[|gs|] == Group(loc, [e])
    decreases |gs|
  {
    if |gs| == 0 then [Group(loc, [e])]
    else if gs[0].loc == loc then [gs[0].(entries := gs[0].entries + [e])] + gs[1..]
    else [gs[0]] + AddEntry(gs[1..], loc, e)
  }

  /** Every entry of every group, group after group. */
  function Flatten(gs: seq<Group>): seq<Entry>
    decreases |gs|
  {
    if |gs| == 0 then [] else gs[0].entries + Flatten(gs[1..])
  }

  function Ptrs(es: seq<Entry>): (ps: seq<string>)
    ensures |ps| == |es|
    ensures forall i :: 0 <= i < |es| ==> ps[i] == es[i].ptr
  {
    seq(|es|, i requires 0 <= i < |es| => es[i].ptr)
  }

  /** Every entry names a live pointer, carries that pointer's size and sits
      in the group of that pointer's call site. */
  predicate Faithful(allocs: Allocs, gs: seq<Group>) {
    forall i, j :: 0 <= i < |gs| && 0 <= j < |gs[i].entries| ==>
      var e := gs[i].entries[j];
      e.ptr in allocs && allocs[e.ptr] == Alloc(gs[i].loc, e.size)
  }

  lemma {:induction false} FlattenAddEntry(gs: seq<Group>, loc: string, e: Entry)
    requires DistinctLocs(gs)
    ensures multiset(Ptrs(Flatten(AddEntry(gs, loc, e)))) == multiset(Ptrs(Flatten(gs))) + multiset{e.ptr}
    ensures SumSizes(Flatten(AddEntry(gs, loc, e))) == SumSizes(Flatten(gs)) + Num(e.size)
    decreases |gs|
  {
    var r := AddEntry(gs, loc, e);
    if |gs| == 0 {
      assert Flatten(r) == [e] + Flatten(r[1..]);
    } else if gs[0].loc == loc {
      assert r[1..] == gs[1..];
      var es := gs[0].entries;
      var tail := Flatten(gs[1..]);
      assert Flatten(r) == (es + [e]) + tail;
      PtrsAppend(es + [e], tail);
      PtrsAppend(es, [e]);
      PtrsAppend(es, tail);
      SumSizesAppend(es + [e], tail);
      SumSizesAppend(es, [e]);
      SumSizesAppend(es, tail);
    } else {
      assert r[1..] == AddEntry(gs[1..], loc, e);
      FlattenAddEntry(gs[1..], loc, e);
      PtrsAppend(gs[0].entries, Flatten(r[1..]));
      PtrsAppend(gs[0].entries, Flatten(gs[1..]));
      SumSizesAppend(gs[0].entries, Flatten(r[1..]));
      SumSizesAppend(gs[0].entries, Flatten(gs[1..]));
    }
  }

  lemma PtrsAppend(a: seq<Entry>, b: seq<Entry>)
    ensures Ptrs(a + b) == Ptrs(a) + Ptrs(b)
  {
  }

  /** Filing an entry under its own call site keeps every entry faithful
      and every group non-empty. */
  lemma AddEntryFaithful(allocs: Allocs, gs: seq<Group>, loc: string, e: Entry)
    requires DistinctLocs(gs) && Faithful(allocs, gs)
    requires forall i :: 0 <= i < |gs| ==> |gs[i].entries| > 0
    requires e.ptr in allocs && allocs[e.ptr] == Alloc(loc, e.size)
    ensures Faithful(allocs, AddEntry(gs, loc, e))
    ensures forall i :: 0 <= i < |AddEntry(gs, loc, e)| ==> |AddEntry(gs, loc, e)[i].entries| > 0
  {
    var r := AddEntry(gs, loc, e);
    forall i, j | 0 <= i < |r| && 0 <= j < |r[i].entries|
      ensures r[i].entries[j].ptr in allocs && allocs[r[i].entries[j].ptr] == Alloc(r[i].loc, r[i].entries[j].size)
    {
      if i < |gs| && j < |gs[i].entries| {
        assert r[i].entries[j] == gs[i].entries[j];
      }
    }
  }

  /** The grouping of lines 134-143: the pointers in enumeration order, each
      filed under its call site. The groups have distinct call sites, none
      is empty, every entry is filed under its own call site with its own
      size, and the entries are the enumerated pointers rearranged. */
  function Dedupe(allocs: Allocs, keys: seq<string>): (gs: seq<Group>)
    requires forall i :: 0 <= i < |keys| ==> keys[i] in allocs
    ensures DistinctLocs(gs)
    ensures forall i :: 0 <= i < |gs| ==> |gs[i].entries| > 0
    ensures Faithful(allocs, gs)
    ensures multiset(Ptrs(Flatten(gs))) == multiset(keys)
    decreases |keys|
  {
    if |keys| == 0 then []
    else
      var k := keys[|keys| - 1];
      var prev := Dedupe(allocs, keys[..|keys| - 1]);
      var e := Entry(k, allocs[k].size);
      FlattenAddEntry(prev, allocs[k].loc, e);
      AddEntryFaithful(allocs, prev, allocs[k].loc, e);
      assert keys == keys[..|keys| - 1] + [k];
      AddEntry(prev, allocs[k].loc, e)
  }

  /** The sizes of a list of entries added up, `NaN` counted as 0. */
  function SumSizes(es: seq<Entry>): int
    decreases |es|
  {
    if |es| == 0 then 0 else Num(es[0].size) + SumSizes(es[1..])
  }

  lemma {:induction false} SumSizesAppend(a: seq<Entry>, b: seq<Entry>)
    ensures SumSizes(a + b) == SumSizes(a) + SumSizes(b)
    decreases |a|
  {
    if |a| == 0 {
      assert a + b == b;
    } else {
      assert (a + b)[1..] == a[1..] + b;
      SumSizesAppend(a[1..], b);
    }
  }

  /** The per-group total of line 148, `reduce((curr, r) => curr + r.size, 0)`:
      `NaN` as soon as one member's size is `NaN`, otherwise the sum of the
      members' sizes. */
  function GroupTotal(es: seq<Entry>): (r: Option<int>)
    ensures r.Some? <==> forall i :: 0 <= i < |es| ==> es[i].size.Some?
    ensures r.Some? ==> r.value == SumSizes(es)
    decreases |es|
  {
    if |es| == 0 then Some(0)
    else
      var prev := GroupTotal(es[..|es| - 1]);
      var last := es[|es| - 1];
      SumSizesAppend(es[..|es| - 1], [last]);
      assert es == es[..|es| - 1] + [last];
      if prev.Some? && last.size.Some? then Some(prev.value + last.size.value) else None
  }

  /** The per-group sums added over all groups. */
  function SumGroups(gs: seq<Group>): int
    decreases |gs|
  {
    if |gs| == 0 then 0 else SumSizes(gs[0].entries) + SumGroups(gs[1..])
  }

  lemma {:induction false} SumGroupsFlatten(gs: seq<Group>)
    ensures SumGroups(gs) == SumSizes(Flatten(gs))
    decreases |gs|
  {
    if |gs| > 0 {
      SumGroupsFlatten(gs[1..]);
      SumSizesAppend(gs[0].entries, Flatten(gs[1..]));
    }
  }

  /** The sizes of the enumerated pointers, added in enumeration order. */
  function SumKeys(allocs: Allocs, keys: seq<string>): int
    requires forall i :: 0 <= i < |keys| ==> keys[i] in allocs
    decreases |keys|
  {
    if |keys| == 0 then 0
    else SumKeys(allocs, keys[..|keys| - 1]) + Num(allocs[keys[|keys| - 1]].size)
  }

  lemma {:induction false} DedupeSum(allocs: Allocs, keys: seq<string>)
    requires forall i :: 0 <= i < |keys| ==> keys[i] in allocs
    ensures SumSizes(Flatten(Dedupe(allocs, keys))) == SumKeys(allocs, keys)
    decreases |keys|
  {
    if |keys| > 0 {
      var k := keys[|keys| - 1];
      DedupeSum(allocs, keys[..|keys| - 1]);
      FlattenAddEntry(Dedupe(allocs, keys[..|keys| - 1]), allocs[k].loc, Entry(k, allocs[k].size));
    }
  }

  /** `SumKeys` reads only the entries of the enumerated pointers. */
  lemma {:induction false} SumKeysFrame(m: Allocs, n: Allocs, keys: seq<string>)
    requires forall i :: 0 <= i < |keys| ==> keys[i] in m && keys[i] in n && m[keys[i]] == n[keys[i]]
    ensures SumKeys(m, keys) == SumKeys(n, keys)
    decreases |keys|
  {
    if |keys| > 0 {
      SumKeysFrame(m, n, keys[..|keys| - 1]);
    }
  }

  /** Adding the enumerated sizes gives the sum over the ledger, whatever
      the enumeration order. */
  lemma {:induction false} SumKeysIsSumLive(allocs: Allocs, keys: seq<string>)
    requires Enumerates(keys, allocs)
    ensures SumKeys(allocs, keys) == SumLive(allocs)
    decreases |keys|
  {
    if |keys| == 0 {
      assert allocs == map[];
    } else {
      var k := keys[|keys| - 1];
      var front := keys[..|keys| - 1];
      var rest := allocs - {k};
      assert k in allocs;
      forall j | j in rest
        ensures j in front
      {
        var i :| 0 <= i < |keys| && keys[i] == j;
        assert i != |keys| - 1;
      }
      assert Enumerates(front, rest);
      SumKeysIsSumLive(rest, front);
      SumKeysFrame(allocs, rest, front);
      SumLiveRemove(allocs, k);
    }
  }

  /** A pointer enumerated once appears once in the multiset. */
  lemma {:induction false} DistinctCount(keys: seq<string>, p: string)
    requires forall i, j :: 0 <= i < j < |keys| ==> keys[i] != keys[j]
    ensures multiset(keys)[p] == if p in keys then 1 else 0
    decreases |keys|
  {
    if |keys| > 0 {
      assert keys == [keys[0]] + keys[1..];
      DistinctCount(keys[1..], p);
      assert keys[0] !in keys[1..];
    }
  }

  /** Grouping partitions the dangling pointers: each appears in exactly
      one group, the one of its own call site, with its own size, and the
      group sizes add up to the number of dangling pointers. */
  lemma GroupsPartitionLedger(allocs: Allocs, keys: seq<string>, p: string)
    requires Enumerates(keys, allocs)
    ensures var gs := Dedupe(allocs, keys);
      && multiset(Ptrs(Flatten(gs)))[p] == (if p in allocs then 1 else 0)
      && |Flatten(gs)| == |allocs|
      && forall i, j :: 0 <= i < |gs| && 0 <= j < |gs[i].entries| && gs[i].entries[j].ptr == p ==>
           gs[i].loc == allocs[p].loc && gs[i].entries[j].size == allocs[p].size
  {
    var gs := Dedupe(allocs, keys);
    DistinctCount(keys, p);
    assert |multiset(Ptrs(Flatten(gs)))| == |multiset(keys)|;
    assert allocs.Keys == set k | k in keys;
    DistinctCard(keys);
  }

  lemma {:induction false} DistinctCard(keys: seq<string>)
    requires forall i, j :: 0 <= i < j < |keys| ==> keys[i] != keys[j]
    ensures |set k | k in keys| == |keys|
    decreases |keys|
  {
    if |keys| > 0 {
      DistinctCard(keys[1..]);
      assert (set k | k in keys) == (set k | k in keys[1..]) + {keys[0]};
      assert keys[0] !in keys[1..];
    }
  }

  /** The per-group totals add up to the sum over the whole ledger, and when
      the replay kept `totalSize` honest they add up to it. */
  lemma GroupTotalsAddUp(st: State, keys: seq<string>)
    requires Enumerates(keys, st.allocs)
    ensures SumGroups(Dedupe(st.allocs, keys)) == SumLive(st.allocs)
    ensures TotalIsLiveSum(st) ==> st.total == Some(SumGroups(Dedupe(st.allocs, keys)))
  {
    var gs := Dedupe(st.allocs, keys);
    SumGroupsFlatten(gs);
    DedupeSum(st.allocs, keys);
    SumKeysIsSumLive(st.allocs, keys);
  }
}

=== FILE: ledger.dfy ===
/** The allocation ledger: replaying the trace, event by event, into the
    map of live pointers and the running byte total. */
module Ledger {
  import opened Wrappers
  import opened Text
  import opened Events

  /** What the ledger knows about one live block: the call site that
      allocated it and its size (`None` when the size was not a number). */
  datatype Alloc = Alloc(loc: string, size: Option<int>)

  /** Live blocks keyed by the pointer string exactly as logged. */
  type Allocs = map<string, Alloc>

  /** A non-fatal complaint the replay reports instead of stopping. */
  datatype Warning = UntrackedFree(ptr: string) | UntrackedRealloc(ptr: string)

  /** The replay state: the live blocks, the running `totalSize` (`None`
      once it has become `NaN`), and the warnings so far, oldest first. */
  datatype State = State(allocs: Allocs, total: Option<int>, warnings: seq<Warning>)

  const Init: State := State(map[], Some(0), [])

  /** The numeric value of a size, 0 for `NaN`. */
  function Num(size: Option<int>): int {
    size.GetOr(0)
  }

  /** `Number(size) * Number(items)`: `NaN` when either factor is. */
  function Product(size: Option<int>, items: Option<int>): (r: Option<int>)
    ensures r.Some? <==> size.Some? && items.Some?
    ensures r.Some? ==> r.value == size.value * items.value
  {
    if size.Some? && items.Some? then Some(size.value * items.value) else None
  }

  /** Recording a new block: `totalSize` grows by its size unless the size
      is `NaN`, and a `NaN` total stays `NaN`. */
  function Insert(st: State, p: string, a: Alloc): (r: State)
    ensures p in r.allocs && r.allocs[p] == a
    ensures r.allocs - {p} == st.allocs - {p}
    ensures r.warnings == st.warnings
    ensures r.total.Some? <==> st.total.Some?
    ensures r.total.Some? ==> r.total.value == st.total.value + Num(a.size)
  {
    var total :=
      if a.size.None? then st.total
      else if st.total.None? then None
      else Some(st.total.value + a.size.value);
    st.(allocs := st.allocs[p := a], total := total)
  }

  /** Dropping a live block: its size is subtracted unconditionally, so a
      `NaN` size makes the total `NaN`. */
  function Release(st: State, p: string): (r: State)
    requires p in st.allocs
    ensures r.allocs.Keys == st.allocs.Keys - {p}
    ensures forall k :: k in r.allocs ==> r.allocs[k] == st.allocs[k]
    ensures r.warnings == st.warnings
    ensures r.total.Some? <==> st.total.Some? && st.allocs[p].size.Some?
    ensures r.total.Some? ==> r.total.value == st.total.value - Num(st.allocs[p].size)
  {
    var size := st.allocs[p].size;
    var total := if st.total.Some? && size.Some? then Some(st.total.value - size.value) else None;
    st.(allocs := st.allocs - {p}, total := total)
  }

  /** The effect of one event on the ledger. A realloc whose old pointer is
      untracked is checked against the null pointer through `old_ptr`:
      find-dangling-ptrs.js tests an unbound name there instead, which
      `StepAsWritten` models. */
  function Step(st: State, e: Event): (r: State)
    ensures e.Malloc? ==>
      && e.ptr in r.allocs && r.allocs[e.ptr] == Alloc(e.loc, e.size)
      && r.allocs - {e.ptr} == st.allocs - {e.ptr}
      && r.warnings == st.warnings
    ensures e.Calloc? ==>
      && e.ptr in r.allocs && r.allocs[e.ptr].loc == e.loc
      && (r.allocs[e.ptr].size.Some? <==> e.size.Some? && e.items.Some?)
      && (r.allocs[e.ptr].size.Some? ==> r.allocs[e.ptr].size.value == e.size.value * e.items.value)
      && r.allocs - {e.ptr} == st.allocs - {e.ptr}
      && r.warnings == st.warnings
    ensures e.Free? && e.ptr in st.allocs ==>
      && r.allocs.Keys == st.allocs.Keys - {e.ptr}
      && (forall k :: k in r.allocs ==> r.allocs[k] == st.allocs[k])
      && r.warnings == st.warnings
    ensures e.Free? && e.ptr !in st.allocs ==>
      && r.allocs == st.allocs && r.total == st.total
      && r.warnings == st.warnings + (if e.ptr != NullPointer then [UntrackedFree(e.ptr)] else [])
    ensures e.Realloc? ==>
      && e.newPtr in r.allocs && r.allocs[e.newPtr] == Alloc(e.loc, e.size)
      && (e.oldPtr != e.newPtr ==> e.oldPtr !in r.allocs)
      && r.allocs - {e.newPtr, e.oldPtr} == st.allocs - {e.newPtr, e.oldPtr}
      && r.warnings == st.warnings +
           (if e.oldPtr !in st.allocs && e.oldPtr != NullPointer then [UntrackedRealloc(e.oldPtr)] else [])
    ensures e.Unknown? ==> r == st
  {
    match e
    case Malloc(p, loc, size) => Insert(st, p, Alloc(loc, size))
    case Calloc(p, loc, size, items) => Insert(st, p, Alloc(loc, Product(size, items)))
    case Free(_, _, p) =>
      if p in st.allocs then Release(st, p)
      else if p != NullPointer then st.(warnings := st.warnings + [UntrackedFree(p)])
      else st
    case Realloc(np, loc, op, size) =>
      var cleared :=
        if op in st.allocs then Release(st, op)
        else if op != NullPointer then st.(warnings := st.warnings + [UntrackedRealloc(op)])
        else st;
      Insert(cleared, np, Alloc(loc, size))
    case Unknown => st
  }

  /** Event `e` stores a block at pointer `p`. */
  predicate Allocates(e: Event, p: string) {
    || (e.Malloc? && e.ptr == p)
    || (e.Calloc? && e.ptr == p)
    || (e.Realloc? && e.newPtr == p)
  }

  /** The events applied in order. Every block live at the end was live at
      the start or was stored by one of the events, and each event adds at
      most one warning. */
  function Replay(st: State, es: seq<Event>): (r: State)
    ensures forall p :: p in r.allocs ==>
      p in st.allocs || exists i :: 0 <= i < |es| && Allocates(es[i], p)
    ensures |r.warnings| <= |st.warnings| + |es|
    decreases |es|
  {
    if |es| == 0 then st else Replay(Step(st, es[0]), es[1..])
  }

  /** The ledger at the end of a log. Every pointer still live was stored
      by some event line of the log, and there are no more warnings than
      event lines. */
  function Analyze(log: string): (r: State)
    ensures forall p :: p in r.allocs ==>
      exists i :: 0 <= i < |EventLines(log)| && Allocates(ParseLine(EventLines(log)[i]), p)
    ensures |r.warnings| <= |EventLines(log)|
  {
    var es := Parse(log);
    assert forall i :: 0 <= i < |es| ==> es[i] == ParseLine(EventLines(log)[i]);
    Replay(Init, es)
  }

  lemma {:induction false} ReplayAppend(st: State, a: seq<Event>, b: seq<Event>)
    ensures Replay(st, a + b) == Replay(Replay(st, a), b)
    decreases |a|
  {
    if |a| == 0 {
      assert a + b == b;
    } else {
      assert (a + b)[1..] == a[1..] + b;
      ReplayAppend(Step(st, a[0]), a[1..], b);
    }
  }

  /** Warnings only accumulate: the replay never retracts one. */
  lemma {:induction false} ReplayKeepsWarnings(st: State, es: seq<Event>)
    ensures |st.warnings| <= |Replay(st, es).warnings|
    ensures Replay(st, es).warnings[..|st.warnings|] == st.warnings
    decreases |es|
  {
    if |es| > 0 {
      var next := Step(st, es[0]);
      ReplayKeepsWarnings(next, es[1..]);
      assert next.warnings[..|st.warnings|] == st.warnings;
    }
  }

  /** Two logs with the same event lines are analysed alike. */
  lemma SameLinesSameAnalysis(a: string, b: string)
    requires EventLines(a) == EventLines(b)
    ensures Analyze(a) == Analyze(b)
  {
    assert Parse(a) == Parse(b);
  }

  /** Dropping a non-event line from between others keeps the same event
      lines. */
  lemma RetainDrop(ls: seq<string>, line: string, rs: seq<string>)
    requires !IsEventLine(line)
    ensures Retain(ls + ([line] + rs)) == Retain(ls + rs)
  {
    RetainAppend(ls, [line] + rs);
    RetainAppend([line], rs);
    RetainAppend(ls, rs);
  }

  /** A line that is not an event line, between two others, changes
      nothing. */
  lemma NonEventLineIsInert(before: string, line: string, after: string)
    requires '\n' !in line && !IsEventLine(line)
    ensures Analyze(before + "\n" + line + "\n" + after) == Analyze(before + "\n" + after)
  {
    var nl: set<char> := {'\n'};
    var ls := SplitOn(before, nl);
    var rs := SplitOn(after, nl);
    assert SplitOn(before + "\n" + line + "\n" + after, nl) == ls + ([line] + rs) by {
      assert before + "\n" + line + "\n" + after == before + ['\n'] + (line + ['\n'] + after);
      SplitOnAppend(before, '\n', line + "\n" + after, nl);
      SplitOnAppend(line, '\n', after, nl);
      SplitOnNone(line, nl);
    }
    assert SplitOn(before + "\n" + after, nl) == ls + rs by {
      assert before + "\n" + after == before + ['\n'] + after;
      SplitOnAppend(before, '\n', after, nl);
    }
    RetainDrop(ls, line, rs);
    SameLinesSameAnalysis(before + "\n" + line + "\n" + after, before + "\n" + after);
  }

  /** A first line that is not an event line, such as the traced program's
      own output, changes nothing. */
  lemma NonEventFirstLineIsInert(line: string, after: string)
    requires '\n' !in line && !IsEventLine(line)
    ensures Analyze(line + "\n" + after) == Analyze(after)
  {
    var nl: set<char> := {'\n'};
    var rs := SplitOn(after, nl);
    assert SplitOn(line + "\n" + after, nl) == [line] + rs by {
      assert line + "\n" + after == line + ['\n'] + after;
      SplitOnAppend(line, '\n', after, nl);
      SplitOnNone(line, nl);
    }
    RetainAppend([line], rs);
    SameLinesSameAnalysis(line + "\n" + after, after);
  }

  /** A last line that is not an event line changes nothing. */
  lemma NonEventLastLineIsInert(before: string, line: string)
    requires '\n' !in line && !IsEventLine(line)
    ensures Analyze(before + "\n" + line) == Analyze(before)
  {
    var nl: set<char> := {'\n'};
    var ls := SplitOn(before, nl);
    assert SplitOn(before + "\n" + line, nl) == ls + [line] by {
      assert before + "\n" + line == before + ['\n'] + line;
      SplitOnAppend(before, '\n', line, nl);
      SplitOnNone(line, nl);
    }
    RetainAppend(ls, [line]);
    SameLinesSameAnalysis(before + "\n" + line, before);
  }

  /** A line that starts with `#` but with none of the four event markers
      leaves the ledger as it was. */
  lemma UnknownMarkerIsInert(st: State, l: string)
    requires IsEventLine(l)
    requires !StartsWith(l, "#m:") && !StartsWith(l, "#c:") && !StartsWith(l, "#f:") && !StartsWith(l, "#r:")
    ensures Step(st, ParseLine(l)) == st
  {
  }

  /** A block allocated at a pointer that was not live and then freed
      leaves the ledger, and the warnings, as they were; the byte total is
      restored too when the size was a number. */
  lemma MallocThenFree(st: State, p: string, loc: string, size: Option<int>, ret: string, site: string)
    requires p !in st.allocs
    ensures var r := Step(Step(st, Malloc(p, loc, size)), Free(ret, site, p));
      && r.allocs == st.allocs
      && r.warnings == st.warnings
      && (size.Some? ==> r.total == st.total)
  {
    var mid := Step(st, Malloc(p, loc, size));
    assert mid.allocs - {p} == st.allocs;
  }

  /** The trace shape "malloc p, free p", repeated. */
  predicate MallocFreePairs(es: seq<Event>) {
    |es| % 2 == 0 && forall i :: 0 <= i < |es| / 2 ==> FreedAfter(es, i)
  }

  /** Event `2i` allocates a pointer that event `2i+1` frees. */
  predicate FreedAfter(es: seq<Event>, i: nat)
    requires 2 * i + 1 < |es|
  {
    es[2 * i].Malloc? && es[2 * i + 1].Free? && es[2 * i + 1].ptr == es[2 * i].ptr
  }

  /** Starting from an empty ledger, a run of malloc/free pairs ends with
      an empty ledger and no warning. */
  lemma {:induction false} MallocFreePairsLeaveNothing(st: State, es: seq<Event>)
    requires st.allocs == map[]
    requires MallocFreePairs(es)
    ensures Replay(st, es).allocs == map[]
    ensures Replay(st, es).warnings == st.warnings
    decreases |es|
  {
    if |es| > 0 {
      assert FreedAfter(es, 0);
      var e0 := es[0];
      var e1 := es[1];
      MallocThenFree(st, e0.ptr, e0.loc, e0.size, e1.ret, e1.loc);
      var next := Step(Step(st, e0), e1);
      assert Replay(st, es) == Replay(next, es[2..]);
      var rest := es[2..];
      forall i | 0 <= i < |rest| / 2
        ensures FreedAfter(rest, i)
      {
        assert FreedAfter(es, i + 1);
        assert rest[2 * i] == es[2 * (i + 1)];
        assert rest[2 * i + 1] == es[2 * (i + 1) + 1];
      }
      MallocFreePairsLeaveNothing(next, rest);
    }
  }

  /** The sum of the sizes of a set of live blocks, `NaN` counted as 0. */
  ghost function SumLive(m: Allocs): int
    decreases |m|
  {
    if m == map[] then 0
    else
      var k :| k in m;
      Num(m[k].size) + SumLive(m - {k})
  }

  /** Any live block can be taken out of the sum first. */
  lemma {:induction false} SumLiveRemove(m: Allocs, k: string)
    requires k in m
    ensures SumLive(m) == Num(m[k].size) + SumLive(m - {k})
    decreases |m|
  {
    var j :| j in m && SumLive(m) == Num(m[j].size) + SumLive(m - {j});
    if j != k {
      assert k in m - {j};
      assert j in m - {k};
      SumLiveRemove(m - {j}, k);
      SumLiveRemove(m - {k}, j);
      assert m - {j} - {k} == m - {k} - {j};
    }
  }

  lemma SumLiveInsert(m: Allocs, k: string, a: Alloc)
    requires k !in m
    ensures SumLive(m[k := a]) == SumLive(m) + Num(a.size)
  {
    SumLiveRemove(m[k := a], k);
    assert m[k := a] - {k} == m;
  }

  /** `totalSize` is the sum of the live sizes. */
  ghost predicate TotalIsLiveSum(st: State) {
    st.total == Some(SumLive(st.allocs))
  }

  /** An event that keeps `totalSize` honest: it does not allocate over a
      pointer that is still live (the old size would never be subtracted),
      and it does not release a block whose size is `NaN`. */
  predicate Benign(st: State, e: Event) {
    match e
    case Malloc(p, _, _) => p !in st.allocs
    case Calloc(p, _, _, _) => p !in st.allocs
    case Free(_, _, p) => p in st.allocs ==> st.allocs[p].size.Some?
    case Realloc(np, _, op, _) =>
      && (op in st.allocs ==> st.allocs[op].size.Some?)
      && (np in st.allocs ==> np == op)
    case Unknown => true
  }

  lemma InsertKeepsTotal(st: State, p: string, a: Alloc)
    requires TotalIsLiveSum(st) && p !in st.allocs
    ensures TotalIsLiveSum(Insert(st, p, a))
  {
    SumLiveInsert(st.allocs, p, a);
  }

  lemma ReleaseKeepsTotal(st: State, p: string)
    requires TotalIsLiveSum(st) && p in st.allocs && st.allocs[p].size.Some?
    ensures TotalIsLiveSum(Release(st, p))
  {
    SumLiveRemove(st.allocs, p);
  }

  /** One benign event keeps `totalSize` equal to the live sum. */
  lemma StepKeepsTotal(st: State, e: Event)
    requires TotalIsLiveSum(st) && Benign(st, e)
    ensures TotalIsLiveSum(Step(st, e))
  {
    match e
    case Malloc(p, loc, size) => InsertKeepsTotal(st, p, Alloc(loc, size));
    case Calloc(p, loc, size, items) => InsertKeepsTotal(st, p, Alloc(loc, Product(size, items)));
    case Free(_, _, p) =>
      if p in st.allocs {
        ReleaseKeepsTotal(st, p);
      }
    case Realloc(np, loc, op, size) =>
      var cleared :=
        if op in st.allocs then Release(st, op)
        else if op != NullPointer then st.(warnings := st.warnings + [UntrackedRealloc(op)])
        else st;
      if op in st.allocs {
        ReleaseKeepsTotal(st, op);
      }
      InsertKeepsTotal(cleared, np, Alloc(loc, size));
    case Unknown =>
  }

  /** Every event of the run is benign in the state it meets. */
  predicate BenignRun(st: State, es: seq<Event>)
    decreases |es|
  {
    |es| == 0 || (Benign(st, es[0]) && BenignRun(Step(st, es[0]), es[1..]))
  }

  /** Over a benign run, the reported byte total is exactly the sum of the
      sizes of the blocks still live. */
  lemma {:induction false} ReplayKeepsTotal(st: State, es: seq<Event>)
    requires TotalIsLiveSum(st) && BenignRun(st, es)
    ensures TotalIsLiveSum(Replay(st, es))
    decreases |es|
  {
    if |es| > 0 {
      StepKeepsTotal(st, es[0]);
      ReplayKeepsTotal(Step(st, es[0]), es[1..]);
    }
  }

  /** The analysis of a whole log whose events are benign reports a total
      equal to the live sum. */
  lemma AnalyzeTotal(log: string)
    requires BenignRun(Init, Parse(log))
    ensures TotalIsLiveSum(Analyze(log))
  {
    assert SumLive(Init.allocs) == 0;
    ReplayKeepsTotal(Init, Parse(log));
  }

  /** How a step of the analyser as written ends: with a new state, or with
      an exception that aborts the run. */
  datatype Outcome = Completed(state: State) | Thrown(error: string)

  /** One step as find-dangling-ptrs.js executes it. The realloc branch
      compares an unbound name with the null pointer whenever the old
      pointer is untracked, which throws a `ReferenceError` and ends the
      whole analysis; every other path behaves as `Step`. */
  function StepAsWritten(st: State, e: Event): (r: Outcome)
    ensures r.Thrown? <==> e.Realloc? && e.oldPtr !in st.allocs
    ensures r.Completed? ==> r.state == Step(st, e)
  {
    match e
    case Realloc(_, _, op, _) =>
      if op in st.allocs then Completed(Step(st, e))
      else Thrown("ReferenceError: ptr is not defined")
    case _ => Completed(Step(st, e))
  }

  /** `realloc(NULL, n)`, the usual way to allocate through realloc, aborts
      the analysis as written, where the intended behaviour records the
      new block and warns about nothing. An untracked non-null old pointer
      aborts it too instead of producing the warning. */
  lemma ReallocOfUntrackedThrows()
    ensures StepAsWritten(Init, Realloc("0x3000", "0x2020", "0x0", Some(128))).Thrown?
    ensures Step(Init, Realloc("0x3000", "0x2020", "0x0", Some(128))) ==
      State(map["0x3000" := Alloc("0x2020", Some(128))], Some(128), [])
    ensures StepAsWritten(Init, Realloc("0x3000", "0x2020", "0x1000", Some(128))).Thrown?
    ensures Step(Init, Realloc("0x3000", "0x2020", "0x1000", Some(128))) ==
      State(map["0x3000" := Alloc("0x2020", Some(128))], Some(128), [UntrackedRealloc("0x1000")])
  {
  }
}

=== FILE: listing.dfy ===
/** Context lookup in the disassembly listing (`findLineInCode`): from a
    call-site address to the ten source or instruction lines before the call
    and the ten after it. */
module Listing {
  import opened Wrappers
  import opened Text
  import opened Numbers
  import opened Events

  /** How many lines are taken on each side of the call. */
  const Context: nat := 10

  /** Every context line is indented by four spaces ... */
  const Indent: string := "    "

  /** ... except the line just before the call, which is marked. */
  const Marker: string := ">>> "

  /** `k` digits of the class `[0-9a-f]` start at `w`, followed by a colon. */
  predicate HexColonAt(line: string, w: nat, k: nat) {
    && w + k < |line|
    && (forall i {:trigger IsLowerHexDigit(line[i])} :: w <= i < w + k ==> IsLowerHexDigit(line[i]))
    && line[w + k] == ':'
  }

  /** An address label of the listing, the pattern `^\s+[0-9a-f]{4,6}:`.
      Digits are never white space, so the white-space run the pattern
      starts with can only be the whole leading run. */
  predicate IsLabel(line: string) {
    var w := LeadingSpaces(line);
    w > 0 && (HexColonAt(line, w, 4) || HexColonAt(line, w, 5) || HexColonAt(line, w, 6))
  }

  /** The label pattern read literally: some non-empty white-space prefix,
      then four to six digits and a colon. */
  ghost predicate LabelPattern(line: string) {
    exists w: nat, k: nat :: 0 < w <= |line| && AllSpace(line[..w]) && 4 <= k <= 6 && HexColonAt(line, w, k)
  }

  /** A white-space prefix followed by a non-space character is the whole
      leading white-space run. */
  lemma LeadingSpacesExact(line: string, w: nat)
    requires w < |line| && AllSpace(line[..w]) && !IsSpace(line[w])
    ensures LeadingSpaces(line) == w
  {
  }

  /** The explicit label test agrees with the pattern on every line. */
  lemma IsLabelMeansPattern(line: string)
    ensures IsLabel(line) <==> LabelPattern(line)
  {
    if LabelPattern(line) {
      var w: nat, k: nat :| 0 < w <= |line| && AllSpace(line[..w]) && 4 <= k <= 6 && HexColonAt(line, w, k);
      assert IsLowerHexDigit(line[w]);
      LeadingSpacesExact(line, w);
    }
    if IsLabel(line) {
      var w := LeadingSpaces(line);
      if HexColonAt(line, w, 4) {
        assert HexColonAt(line, w, 4);
      } else if HexColonAt(line, w, 5) {
        assert HexColonAt(line, w, 5);
      } else {
        assert HexColonAt(line, w, 6);
      }
    }
  }

  /** The line a search key selects, the pattern `^\s+<key>:`. The key holds
      only hexadecimal digits, `-` or the letters of `nan`, none of which is
      special in a regular expression, so it matches itself literally. */
  predicate MatchesKey(line: string, key: string) {
    var w := LeadingSpaces(line);
    w > 0 && StartsWith(line[w..], key + ":")
  }

  /** The key pattern read literally: some non-empty white-space prefix, then
      the key and a colon. */
  ghost predicate KeyPattern(line: string, key: string) {
    exists w: nat :: 0 < w <= |line| && AllSpace(line[..w]) && StartsWith(line[w..], key + ":")
  }

  /** For a key that does not start with white space, the explicit test
      agrees with the pattern. */
  lemma MatchesKeyMeansPattern(line: string, key: string)
    requires |key| > 0 && !IsSpace(key[0])
    ensures MatchesKey(line, key) <==> KeyPattern(line, key)
  {
    if KeyPattern(line, key) {
      var w: nat :| 0 < w <= |line| && AllSpace(line[..w]) && StartsWith(line[w..], key + ":");
      assert line[w] == (key + ":")[0];
      LeadingSpacesExact(line, w);
    }
  }

  /** The search key for a call site: the hexadecimal digits after the first
      two characters decoded with `parseInt(.., 16)`, minus one (the logged
      address is the return address, the call sits one before it), written
      back with `toString(16)` and lower-cased; an undecodable address gives
      `NaN`, lower-cased `nan`. */
  function SearchKey(loc: string): (key: string)
    ensures |key| > 0 && !IsSpace(key[0])
    ensures forall i :: 0 <= i < |key| ==> IsLowerHexDigit(key[i]) || key[i] == '-' || key[i] == 'n'
  {
    match ParseIntHex(Substr(loc, 2))
    case None => "nan"
    case Some(v) => IntToHex(v - 1)
  }

  /** A call site logged as `0x` and the hexadecimal of `n + 1` is looked up
      under the plain hexadecimal of `n`. */
  lemma SearchKeyOfAddress(n: nat)
    ensures SearchKey("0x" + ToDigits(n + 1, 16)) == ToDigits(n, 16)
  {
    var loc := "0x" + ToDigits(n + 1, 16);
    assert Substr(loc, 2) == ToDigits(n + 1, 16);
    HexRoundTrip(n + 1);
  }

  /** A call site whose address part decodes to `v` is looked up under the
      hexadecimal of `v - 1`. */
  lemma SearchKeyOfValue(loc: string, v: int)
    requires ParseIntHex(Substr(loc, 2)) == Some(v)
    ensures SearchKey(loc) == IntToHex(v - 1)
  {
  }

  /** A call site whose text after its first two characters (`0x` in a
      trace) is a run of hexadecimal digits, upper-case or zero-padded, is
      looked up under the lower-case hexadecimal, without leading zeros, of
      its value minus one. */
  lemma SearchKeyOfDigits(loc: string)
    requires |loc| > 2 && AllDigits(loc[2..], 16)
    ensures SearchKey(loc) == IntToHex(ValueOf(loc[2..], 16) - 1)
  {
    ParseIntHexDigits(loc[2..]);
    SearchKeyOfValue(loc, ValueOf(loc[2..], 16));
  }

  /** `findIndex` from position `from`: the first line at or after `from`
      that matches the key, or -1 when there is none. */
  function FindIndexFrom(ls: seq<string>, key: string, from: nat): (r: int)
    requires from <= |ls|
    ensures r == -1 || from <= r < |ls|
    ensures r >= 0 ==> MatchesKey(ls[r], key)
    ensures r >= 0 ==> forall j {:trigger MatchesKey(ls[j], key)} :: from <= j < r ==> !MatchesKey(ls[j], key)
    ensures r == -1 ==> forall j {:trigger MatchesKey(ls[j], key)} :: from <= j < |ls| ==> !MatchesKey(ls[j], key)
    decreases |ls| - from
  {
    if from == |ls| then -1
    else if MatchesKey(ls[from], key) then from
    else FindIndexFrom(ls, key, from + 1)
  }

  function FindIndex(ls: seq<string>, key: string): (r: int)
    ensures r == -1 || 0 <= r < |ls|
  {
    FindIndexFrom(ls, key, 0)
  }

  /** The indices in `[lo, hi)` of lines that are not address labels,
      in increasing order. */
  function NonLabelBetween(ls: seq<string>, lo: nat, hi: nat): (r: seq<nat>)
    requires lo <= hi <= |ls|
    ensures |r| <= hi - lo
    ensures forall i :: 0 <= i < |r| ==> lo <= r[i] < hi
    decreases hi - lo
  {
    if lo == hi then []
    else (if IsLabel(ls[lo]) then [] else [lo]) + NonLabelBetween(ls, lo + 1, hi)
  }

  /** `NonLabelBetween` lists exactly the non-label lines of the range,
      each once, in listing order. */
  lemma {:induction false} NonLabelBetweenSpec(ls: seq<string>, lo: nat, hi: nat)
    requires lo <= hi <= |ls|
    ensures var r := NonLabelBetween(ls, lo, hi);
      && (forall i :: 0 <= i < |r| ==> !IsLabel(ls[r[i]]))
      && (forall i, j :: 0 <= i < j < |r| ==> r[i] < r[j])
      && (forall j :: lo <= j < hi && !IsLabel(ls[j]) ==> j in r)
    decreases hi - lo
  {
    if lo < hi {
      NonLabelBetweenSpec(ls, lo + 1, hi);
    }
  }

  lemma {:induction false} NonLabelSplit(ls: seq<string>, lo: nat, mid: nat, hi: nat)
    requires lo <= mid <= hi <= |ls|
    ensures NonLabelBetween(ls, lo, hi) == NonLabelBetween(ls, lo, mid) + NonLabelBetween(ls, mid, hi)
    decreases mid - lo
  {
    if lo < mid {
      NonLabelSplit(ls, lo + 1, mid, hi);
    }
  }

  /** The non-label lines before line `ix`, nearest last. */
  function Before(ls: seq<string>, ix: nat): seq<nat>
    requires ix < |ls|
  {
    NonLabelBetween(ls, 0, ix)
  }

  /** The non-label lines after line `ix`, nearest first. */
  function After(ls: seq<string>, ix: nat): seq<nat>
    requires ix < |ls|
  {
    NonLabelBetween(ls, ix + 1, |ls|)
  }

  /** The inputs on which find-dangling-ptrs.js's lookup is well defined:
      the key is found and ten non-label lines exist on each side of it. */
  predicate Resolvable(loc: string, ls: seq<string>) {
    var ix := FindIndex(ls, SearchKey(loc));
    0 <= ix && |Before(ls, ix)| >= Context && |After(ls, ix)| >= Context
  }

  /** The lines at the given indices, in that order, each behind `pre`. */
  function Pick(ls: seq<string>, idx: seq<nat>, pre: string): (r: seq<string>)
    requires forall i :: 0 <= i < |idx| ==> idx[i] < |ls|
    ensures |r| == |idx|
    ensures forall k {:trigger r[k]} :: 0 <= k < |idx| ==> r[k] == pre + ls[idx[k]]
  {
    if idx == [] then [] else [pre + ls[idx[0]]] + Pick(ls, idx[1..], pre)
  }

  /** The non-label lines of `[lo, hi)` in listing order, each behind
      `pre`: what a scan over that range collects. */
  function LinesBetween(ls: seq<string>, lo: nat, hi: nat, pre: string): seq<string>
    requires lo <= hi <= |ls|
    decreases hi - lo
  {
    if lo == hi then []
    else (if IsLabel(ls[lo]) then [] else [pre + ls[lo]]) + LinesBetween(ls, lo + 1, hi, pre)
  }

  /** The collected lines are the lines at the indices `NonLabelBetween`
      lists. */
  lemma {:induction false} LinesBetweenPick(ls: seq<string>, lo: nat, hi: nat, pre: string)
    requires lo <= hi <= |ls|
    ensures LinesBetween(ls, lo, hi, pre) == Pick(ls, NonLabelBetween(ls, lo, hi), pre)
    decreases hi - lo
  {
    if lo < hi {
      LinesBetweenPick(ls, lo + 1, hi, pre);
      var rest := NonLabelBetween(ls, lo + 1, hi);
      if IsLabel(ls[lo]) {
        assert NonLabelBetween(ls, lo, hi) == [] + rest == rest;
        assert LinesBetween(ls, lo, hi, pre) == [] + LinesBetween(ls, lo + 1, hi, pre);
      } else {
        var idx := [lo] + rest;
        assert NonLabelBetween(ls, lo, hi) == idx;
        assert idx[0] == lo && idx[1..] == rest;
        assert Pick(ls, idx, pre) == [pre + ls[lo]] + Pick(ls, rest, pre);
      }
    }
  }

  lemma {:induction false} LinesSplit(ls: seq<string>, lo: nat, mid: nat, hi: nat, pre: string)
    requires lo <= mid <= hi <= |ls|
    ensures LinesBetween(ls, lo, hi, pre) == LinesBetween(ls, lo, mid, pre) + LinesBetween(ls, mid, hi, pre)
    decreases mid - lo
  {
    if lo < mid {
      LinesSplit(ls, lo + 1, mid, hi, pre);
    }
  }

  /** One step of the forward scan: the range grows by line `hi - 1`,
      which is collected unless it is a label. */
  lemma LinesLast(ls: seq<string>, lo: nat, hi: nat, pre: string)
    requires lo < hi <= |ls|
    ensures IsLabel(ls[hi - 1]) ==> LinesBetween(ls, lo, hi, pre) == LinesBetween(ls, lo, hi - 1, pre)
    ensures !IsLabel(ls[hi - 1]) ==>
      LinesBetween(ls, lo, hi, pre) == LinesBetween(ls, lo, hi - 1, pre) + [pre + ls[hi - 1]]
  {
    LinesSplit(ls, lo, hi - 1, hi, pre);
    assert LinesBetween(ls, hi - 1, hi, pre) ==
      (if IsLabel(ls[hi - 1]) then [] else [pre + ls[hi - 1]]) + [];
  }

  /** What the backward scan holds when it stops at `cur`: the last
      non-label lines before `ix`, all of them once it reaches the top. */
  lemma BackwardResult(ls: seq<string>, cur: nat, ix: nat, lines: seq<string>)
    requires cur <= ix < |ls|
    requires lines == LinesBetween(ls, cur, ix, "")
    ensures var b := Before(ls, ix);
      var n := |lines|;
      && n <= |b|
      && (cur == 0 ==> n == |b|)
      && forall k :: 0 <= k < n ==> lines[k] == ls[b[|b| - n + k]]
  {
    LinesBetweenPick(ls, cur, ix, "");
    NonLabelSplit(ls, 0, cur, ix);
    forall k | 0 <= k < |lines|
      ensures lines[k] == ls[Before(ls, ix)[|Before(ls, ix)| - |lines| + k]]
    {
      assert "" + ls[NonLabelBetween(ls, cur, ix)[k]] == ls[NonLabelBetween(ls, cur, ix)[k]];
    }
  }

  /** The backward scan with a bounds check stops either with ten lines or
      at the top of the listing; either way it holds the last
      `Min(Context, |Before(ls, ix)|)` non-label lines before `ix`. */
  lemma BackwardClampedResult(ls: seq<string>, cur: nat, ix: nat, lines: seq<string>)
    requires cur <= ix < |ls|
    requires lines == LinesBetween(ls, cur, ix, "")
    requires |lines| <= Context && (cur == 0 || |lines| == Context)
    ensures var b := Before(ls, ix);
      var n := Min(Context, |b|);
      && |lines| == n
      && forall k :: 0 <= k < n ==> lines[k] == ls[b[|b| - n + k]]
  {
    BackwardResult(ls, cur, ix, lines);
  }

  /** While the backward scan has fewer lines than exist before `ix`, it
      is not yet at the top of the listing. */
  lemma BackwardRoom(ls: seq<string>, cur: nat, ix: nat)
    requires cur <= ix < |ls|
    requires |LinesBetween(ls, cur, ix, "")| < |Before(ls, ix)|
    ensures cur > 0
  {
    if cur == 0 {
      LinesBetweenPick(ls, cur, ix, "");
    }
  }

  /** While the forward scan has fewer lines than exist after `ix`, it is
      not yet at the end of the listing. */
  lemma ForwardRoom(ls: seq<string>, ix: nat, cur: nat)
    requires ix <= cur < |ls|
    requires |LinesBetween(ls, ix + 1, cur + 1, Indent)| < |After(ls, ix)|
    ensures cur + 1 < |ls|
  {
    if cur + 1 == |ls| {
      LinesBetweenPick(ls, ix + 1, cur + 1, Indent);
    }
  }

  /** What the forward scan holds when it stops at `cur`: the first
      non-label lines after `ix`, all of them once it reaches the end. */
  lemma ForwardResult(ls: seq<string>, ix: nat, cur: nat, lines: seq<string>)
    requires ix <= cur < |ls|
    requires lines == LinesBetween(ls, ix + 1, cur + 1, Indent)
    ensures var a := After(ls, ix);
      var n := |lines|;
      && n <= |a|
      && (cur + 1 == |ls| ==> n == |a|)
      && forall k :: 0 <= k < n ==> lines[k] == Indent + ls[a[k]]
  {
    LinesBetweenPick(ls, ix + 1, cur + 1, Indent);
    NonLabelSplit(ls, ix + 1, cur + 1, |ls|);
  }

  /** The forward scan with a bounds check stops either with ten lines or
      at the end of the listing; either way it holds the first
      `Min(Context, |After(ls, ix)|)` non-label lines after `ix`. */
  lemma ForwardClampedResult(ls: seq<string>, ix: nat, cur: nat, lines: seq<string>)
    requires ix <= cur < |ls|
    requires lines == LinesBetween(ls, ix + 1, cur + 1, Indent)
    requires |lines| <= Context && (cur + 1 == |ls| || |lines| == Context)
    ensures var a := After(ls, ix);
      var n := Min(Context, |a|);
      && |lines| == n
      && forall k :: 0 <= k < n ==> lines[k] == Indent + ls[a[k]]
  {
    ForwardResult(ls, ix, cur, lines);
  }

  /** The backward scan of lines 170-178: walk up from the matched line and
      collect the first ten non-label lines met, restoring their order. */
  method CollectBefore(ls: seq<string>, ix: nat) returns (lines: seq<string>)
    requires ix < |ls| && |Before(ls, ix)| >= Context
    ensures var b := Before(ls, ix);
      && |lines| == Context
      && forall k :: 0 <= k < Context ==> lines[k] == ls[b[|b| - Context + k]]
  {
    var toFind: int := Context;
    var cur: int := ix;
    lines := [];
    while toFind > 0 || cur > |ls|
      invariant 0 <= cur <= ix
      invariant 0 <= toFind <= Context
      invariant |lines| == Context - toFind
      invariant lines == LinesBetween(ls, cur, ix, "")
      decreases cur
    {
      BackwardRoom(ls, cur, ix);
      cur := cur - 1;
      if !IsLabel(ls[cur]) {
        assert "" + ls[cur] == ls[cur];
        lines := [ls[cur]] + lines;
        toFind := toFind - 1;
      }
    }
    BackwardResult(ls, cur, ix, lines);
  }

  /** The forward scan of lines 183-191: walk down from the matched line and
      collect the first ten non-label lines met, each indented. */
  method CollectAfter(ls: seq<string>, ix: nat) returns (lines: seq<string>)
    requires ix < |ls| && |After(ls, ix)| >= Context
    ensures var a := After(ls, ix);
      && |lines| == Context
      && forall k :: 0 <= k < Context ==> lines[k] == Indent + ls[a[k]]
  {
    var toFind: int := Context;
    var cur: int := ix;
    lines := [];
    while toFind > 0 || cur > |ls|
      invariant ix <= cur < |ls|
      invariant 0 <= toFind <= Context
      invariant |lines| == Context - toFind
      invariant lines == LinesBetween(ls, ix + 1, cur + 1, Indent)
      decreases |ls| - cur
    {
      ForwardRoom(ls, ix, cur);
      cur := cur + 1;
      LinesLast(ls, ix + 1, cur + 1, Indent);
      if !IsLabel(ls[cur]) {
        lines := lines + [Indent + ls[cur]];
        toFind := toFind - 1;
      }
    }
    ForwardResult(ls, ix, cur, lines);
  }

  /** Every line indented, then the last one's indentation replaced by the
      marker (lines 179-181). */
  function MarkLast(before: seq<string>): (r: seq<string>)
    ensures |r| == |before|
    ensures forall k :: 0 <= k < |r| ==>
      r[k] == (if k == |r| - 1 then Marker else Indent) + before[k]
  {
    var lines := seq(|before|, i requires 0 <= i < |before| => Indent + before[i]);
    if |lines| == 0 then lines
    else
      var last := |lines| - 1;
      assert lines[last][4..] == before[last];
      lines[last := Marker + lines[last][4..]]
  }

  /** The marked lines before the call followed by the lines after it:
      the first `|before|` lines are `before` marked, the rest `after`. */
  lemma Assemble(before: seq<string>, after: seq<string>)
    ensures var r := MarkLast(before) + after;
      && |r| == |before| + |after|
      && (forall k :: 0 <= k < |before| ==>
            r[k] == (if k == |before| - 1 then Marker else Indent) + before[k])
      && (forall k :: 0 <= k < |after| ==> r[|before| + k] == after[k])
  {
  }

  /** `r` is the context of line `ix` with `nb` lines before it and `na`
      after it: the `nb` nearest non-label lines before the line, in listing
      order, the last of them marked `>>> ` and the others indented by four
      spaces, then the `na` nearest non-label lines after it, indented. */
  predicate ContextOf(ls: seq<string>, ix: nat, nb: nat, na: nat, r: seq<string>)
    requires ix < |ls| && nb <= |Before(ls, ix)| && na <= |After(ls, ix)|
  {
    var b := Before(ls, ix);
    var a := After(ls, ix);
    && |r| == nb + na
    && (forall k :: 0 <= k < nb ==>
          r[k] == (if k == nb - 1 then Marker else Indent) + ls[b[|b| - nb + k]])
    && (forall k :: 0 <= k < na ==> r[nb + k] == Indent + ls[a[k]])
  }

  /** The context of line `ix` when ten non-label lines exist on each side
      of it: the marked lines before it, then the indented lines after. */
  method ContextAt(ls: seq<string>, ix: nat) returns (r: seq<string>)
    requires ix < |ls| && |Before(ls, ix)| >= Context && |After(ls, ix)| >= Context
    ensures ContextOf(ls, ix, Context, Context, r)
  {
    var before := CollectBefore(ls, ix);
    var lines := MarkLast(before);
    var after := CollectAfter(ls, ix);
    r := lines + after;
    Assemble(before, after);
  }

  /** `findLineInCode` where it is well defined: exactly twenty lines, the
      ten nearest non-label lines before the matched line in listing order,
      then the ten nearest after it; the matched line and every address
      label are skipped; the last line before the call is marked `>>> `,
      every other line is indented by four spaces. */
  method FindLineInCode(loc: string, ls: seq<string>) returns (r: seq<string>)
    requires Resolvable(loc, ls)
    ensures |r| == 2 * Context
    ensures ContextOf(ls, FindIndex(ls, SearchKey(loc)), Context, Context, r)
  {
    var key := SearchKey(loc);
    var lineIx := FindIndex(ls, key);
    r := ContextAt(ls, lineIx);
  }

  function Min(a: nat, b: nat): nat {
    if a < b then a else b
  }

  /** The backward scan with the bounds check the original lacks: it stops
      at the top of the listing with whatever it has found. */
  method CollectBeforeClamped(ls: seq<string>, ix: nat) returns (lines: seq<string>)
    requires ix < |ls|
    ensures var b := Before(ls, ix);
      var n := Min(Context, |b|);
      && |lines| == n
      && forall k :: 0 <= k < n ==> lines[k] == ls[b[|b| - n + k]]
  {
    var toFind: int := Context;
    var cur: int := ix;
    lines := [];
    while toFind > 0 && cur > 0
      invariant 0 <= cur <= ix
      invariant 0 <= toFind <= Context
      invariant |lines| == Context - toFind
      invariant lines == LinesBetween(ls, cur, ix, "")
      decreases cur
    {
      cur := cur - 1;
      if !IsLabel(ls[cur]) {
        assert "" + ls[cur] == ls[cur];
        lines := [ls[cur]] + lines;
        toFind := toFind - 1;
      }
    }
    BackwardClampedResult(ls, cur, ix, lines);
  }

  /** The forward scan with a bounds check: it stops at the end of the
      listing with whatever it has found. */
  method CollectAfterClamped(ls: seq<string>, ix: nat) returns (lines: seq<string>)
    requires ix < |ls|
    ensures var a := After(ls, ix);
      var n := Min(Context, |a|);
      && |lines| == n
      && forall k :: 0 <= k < n ==> lines[k] == Indent + ls[a[k]]
  {
    var toFind: int := Context;
    var cur: int := ix;
    lines := [];
    while toFind > 0 && cur + 1 < |ls|
      invariant ix <= cur < |ls|
      invariant 0 <= toFind <= Context
      invariant |lines| == Context - toFind
      invariant lines == LinesBetween(ls, ix + 1, cur + 1, Indent)
      decreases |ls| - cur
    {
      cur := cur + 1;
      LinesLast(ls, ix + 1, cur + 1, Indent);
      if !IsLabel(ls[cur]) {
        lines := lines + [Indent + ls[cur]];
        toFind := toFind - 1;
      }
    }
    ForwardClampedResult(ls, ix, cur, lines);
  }

  /** The context of line `ix` with both scans bounded by the listing. */
  method ContextAtClamped(ls: seq<string>, ix: nat) returns (r: seq<string>)
    requires ix < |ls|
    ensures ContextOf(ls, ix, Min(Context, |Before(ls, ix)|), Min(Context, |After(ls, ix)|), r)
  {
    var before := CollectBeforeClamped(ls, ix);
    var lines := MarkLast(before);
    var after := CollectAfterClamped(ls, ix);
    r := lines + after;
    Assemble(before, after);
  }

  /** The lookup with both scans bounded and a miss made explicit: an
      address that is not in the listing gives no context; otherwise up to
      ten lines on each side, the nearest line before the call marked when
      there is one. Where the original is well defined it agrees with it
      (twenty lines, compare `FindLineInCode`). */
  method FindLineInCodeClamped(loc: string, ls: seq<string>) returns (r: seq<string>)
    ensures FindIndex(ls, SearchKey(loc)) < 0 ==> r == []
    ensures var ix := FindIndex(ls, SearchKey(loc));
      ix >= 0 ==> ContextOf(ls, ix, Min(Context, |Before(ls, ix)|), Min(Context, |After(ls, ix)|), r)
    ensures Resolvable(loc, ls) ==> |r| == 2 * Context
  {
    var key := SearchKey(loc);
    var lineIx := FindIndex(ls, key);
    if lineIx < 0 {
      return [];
    }
    r := ContextAtClamped(ls, lineIx);
  }

  /** `symbolLines[i]`: past either end of the listing JavaScript reads
      `undefined`, which the label test and the string concatenation both
      turn into the text `undefined`. */
  function LineAt(ls: seq<string>, i: int): string {
    if 0 <= i < |ls| then ls[i] else Undefined
  }

  /** The forward scan exactly as lines 183-191 run it, without bounds, for
      at most `fuel` iterations: `None` when the loop has not stopped by then. */
  function ForwardScanAsWritten(ls: seq<string>, cur: int, toFind: int, fuel: nat): (r: Option<seq<string>>)
    ensures cur > |ls| ==> r.None?
    ensures r.Some? && toFind >= 0 ==> |r.value| == toFind
    ensures r.Some? ==> forall k :: 0 <= k < |r.value| ==> StartsWith(r.value[k], Indent)
    decreases fuel
  {
    if !(toFind > 0 || cur > |ls|) then Some([])
    else if fuel == 0 then None
    else
      var line := LineAt(ls, cur + 1);
      if IsLabel(line) then ForwardScanAsWritten(ls, cur + 1, toFind, fuel - 1)
      else
        match ForwardScanAsWritten(ls, cur + 1, toFind - 1, fuel - 1)
        case None => None
        case Some(rest) => Some([Indent + line] + rest)
  }

  /** Once the forward scan is at the end of the listing and still needs
      more lines than are left before index `|ls|`, it never stops: the
      guard `currLineIx > symbolLines.length` stays true for good. */
  lemma {:induction false} ForwardScanPastEndNeverStops(ls: seq<string>, cur: int, toFind: int, fuel: nat)
    requires cur + 1 >= |ls|
    requires cur + (if toFind > 0 then toFind else 0) > |ls|
    ensures ForwardScanAsWritten(ls, cur, toFind, fuel) == None
    decreases fuel
  {
    if fuel > 0 {
      assert !IsLabel(LineAt(ls, cur + 1));
      ForwardScanPastEndNeverStops(ls, cur + 1, toFind - 1, fuel - 1);
    }
  }

  /** Call site `0x8001` is looked up under `8000`. */
  lemma KeyOf8001()
    ensures SearchKey("0x8001") == "8000"
  {
    assert ToDigits(0x8001, 16) == "8001" by {
      assert ToDigits(0x800, 16) == "800";
    }
    assert ToDigits(0x8000, 16) == "8000" by {
      assert ToDigits(0x800, 16) == "800";
    }
    assert "0x" + ToDigits(0x8001, 16) == "0x8001";
    SearchKeyOfAddress(0x8000);
  }

  /** The one line of the listing below carries the label `8000`. */
  lemma Line8000Matches()
    ensures MatchesKey("    8000:\tbx\tlr", "8000")
  {
    var line := "    8000:\tbx\tlr";
    LeadingSpacesExact(line, 4);
    assert line[4..][..5] == "8000:";
  }

  /** Call site `0x8001` resolves to the first, and last, line of a
      one-line listing. */
  lemma LastLineKey()
    ensures FindIndex(["    8000:\tbx\tlr"], SearchKey("0x8001")) == 0
  {
    KeyOf8001();
    Line8000Matches();
  }

  /** A call whose instruction is the last line of the listing: the key is
      found (`LastLineKey`), yet the scan as written never returns, while the bounded scan
      returns no line after it. */
  lemma LastLineMatchNeverStops(fuel: nat)
    ensures FindIndex(["    8000:\tbx\tlr"], SearchKey("0x8001")) == 0
    ensures ForwardScanAsWritten(["    8000:\tbx\tlr"], 0, Context, fuel) == None
    ensures After(["    8000:\tbx\tlr"], 0) == []
  {
    LastLineKey();
    ForwardScanPastEndNeverStops(["    8000:\tbx\tlr"], 0, Context, fuel);
  }
}

=== FILE: numbers.dfy ===
/** The three JavaScript number conversions the analyser relies on:
    `Number(s)` for sizes, `parseInt(s, 16)` for call-site addresses and
    `n.toString(16)` for the disassembly search key. JavaScript numbers are
    doubles; here they are unbounded integers, and `None` is `NaN`. */
module Numbers {
  import opened Wrappers
  import opened Text

  /** The value of one hexadecimal digit, either case. */
  function DigitValue(c: char): (v: nat)
    requires IsHexDigit(c)
    ensures v < 16
    ensures IsDecDigit(c) <==> v < 10
  {
    if IsDecDigit(c) then c as int - '0' as int
    else if 'a' <= c <= 'f' then c as int - 'a' as int + 10
    else c as int - 'A' as int + 10
  }

  /** The lower-case digit for `d`, as `toString` writes it. */
  function DigitChar(d: nat): (c: char)
    requires d < 16
    ensures IsLowerHexDigit(c) && IsHexDigit(c) && DigitValue(c) == d
    ensures d < 10 <==> IsDecDigit(c)
  {
    if d < 10 then ('0' as int + d) as char else ('a' as int + d - 10) as char
  }

  predicate IsBase(base: nat) {
    base == 10 || base == 16
  }

  /** A digit of `base`: decimal digits for 10, hexadecimal for 16. */
  predicate IsDigitOf(c: char, base: nat) {
    if base == 10 then IsDecDigit(c) else IsHexDigit(c)
  }

  predicate AllDigits(s: string, base: nat) {
    forall i :: 0 <= i < |s| ==> IsDigitOf(s[i], base)
  }

  /** The value of a digit string, most significant digit first. */
  function ValueOf(s: string, base: nat): nat
    requires IsBase(base) && AllDigits(s, base)
    decreases |s|
  {
    if |s| == 0 then 0
    else ValueOf(s[..|s| - 1], base) * base + DigitValue(s[|s| - 1])
  }

  /** `n.toString(base)` for a non-negative integer: no leading zeros,
      lower-case digits. */
  function ToDigits(n: nat, base: nat): (s: string)
    requires IsBase(base)
    ensures |s| >= 1 && AllDigits(s, base)
    ensures forall i :: 0 <= i < |s| ==> IsLowerHexDigit(s[i])
    ensures |s| > 1 ==> s[0] != '0'
    decreases n
  {
    if n < base then [DigitChar(n)]
    else ToDigits(n / base, base) + [DigitChar(n % base)]
  }

  /** Reading back what `ToDigits` wrote gives the number. */
  lemma {:induction false} ValueOfToDigits(n: nat, base: nat)
    requires IsBase(base)
    ensures ValueOf(ToDigits(n, base), base) == n
    decreases n
  {
    if n >= base {
      var s := ToDigits(n, base);
      ValueOfToDigits(n / base, base);
      assert s[..|s| - 1] == ToDigits(n / base, base);
    }
  }

  /** The longest prefix of `s` made of hexadecimal digits. */
  function HexPrefix(s: string): (p: string)
    ensures StartsWith(s, p) && AllDigits(p, 16)
    ensures |p| < |s| ==> !IsHexDigit(s[|p|])
    decreases |s|
  {
    if |s| == 0 || !IsHexDigit(s[0]) then ""
    else [s[0]] + HexPrefix(s[1..])
  }

  lemma {:induction false} HexPrefixOfDigits(s: string)
    requires AllDigits(s, 16)
    ensures HexPrefix(s) == s
    decreases |s|
  {
    if |s| > 0 {
      HexPrefixOfDigits(s[1..]);
    }
  }

  /** True when `s` begins with `0x` or `0X`. */
  predicate HasHexMarker(s: string) {
    |s| >= 2 && s[0] == '0' && (s[1] == 'x' || s[1] == 'X')
  }

  /** `Number(s)` on a string: white space around the text is ignored, the
      empty text is 0, and the text must be a whole decimal numeral with an
      optional sign or a `0x` hexadecimal numeral; anything else is `NaN`. */
  function ToNumber(s: string): (r: Option<int>)
    ensures AllSpace(s) ==> r == Some(0)
  {
    var t := Trim(s);
    if t == "" then Some(0)
    else if HasHexMarker(t) then
      (if |t| > 2 && AllDigits(t[2..], 16) then Some(ValueOf(t[2..], 16) as int) else None)
    else if AllDigits(t, 10) then Some(ValueOf(t, 10) as int)
    else if |t| > 1 && t[0] == '+' && AllDigits(t[1..], 10) then Some(ValueOf(t[1..], 10) as int)
    else if |t| > 1 && t[0] == '-' && AllDigits(t[1..], 10) then Some(0 - ValueOf(t[1..], 10))
    else None
  }

  /** Any non-empty run of decimal digits, leading zeros included, reads
      as its value. */
  lemma DigitsToNumber(s: string)
    requires |s| > 0 && AllDigits(s, 10)
    ensures ToNumber(s) == Some(ValueOf(s, 10) as int)
  {
    assert IsDecDigit(s[0]) && IsDecDigit(s[|s| - 1]);
    TrimUnpadded(s);
    assert !HasHexMarker(s) by {
      if |s| >= 2 { assert IsDecDigit(s[1]); }
    }
  }

  /** A decimal numeral reads back as its value. */
  lemma DecimalToNumber(n: nat)
    ensures ToNumber(ToDigits(n, 10)) == Some(n)
  {
    var s := ToDigits(n, 10);
    TrimUnpadded(s);
    ValueOfToDigits(n, 10);
  }

  /** `parseInt(s, 16)`: skip leading white space, take an optional sign and
      an optional `0x` marker, then read the longest run of hexadecimal
      digits; with no digit the result is `NaN`. */
  function ParseIntHex(s: string): (r: Option<int>)
    ensures AllSpace(s) ==> r.None?
  {
    var t := s[LeadingSpaces(s)..];
    var negative := |t| > 0 && t[0] == '-';
    var u := if |t| > 0 && (t[0] == '-' || t[0] == '+') then t[1..] else t;
    var v := if HasHexMarker(u) then u[2..] else u;
    var d := HexPrefix(v);
    if d == "" then None
    else if negative then Some(0 - ValueOf(d, 16))
    else Some(ValueOf(d, 16))
  }

  /** `parseInt(.., 16)` reads any non-empty run of hexadecimal digits,
      either case and leading zeros included, as its value. */
  lemma ParseIntHexDigits(d: string)
    requires |d| > 0 && AllDigits(d, 16)
    ensures ParseIntHex(d) == Some(ValueOf(d, 16))
  {
    assert IsHexDigit(d[0]);
    assert LeadingSpaces(d) == 0;
    assert d[0..] == d;
    assert d[0] != '-' && d[0] != '+';
    assert !HasHexMarker(d) by {
      if |d| >= 2 { assert IsHexDigit(d[1]); }
    }
    HexPrefixOfDigits(d);
  }

  /** `n.toString(16)` for any integer: a minus sign, then the digits of the
      magnitude. */
  function IntToHex(n: int): (s: string)
    ensures |s| >= 1
    ensures s[0] == '-' <==> n < 0
    ensures forall i :: 0 < i < |s| ==> IsLowerHexDigit(s[i])
    ensures IsLowerHexDigit(s[0]) || s[0] == '-'
  {
    if n < 0 then "-" + ToDigits(-n, 16) else ToDigits(n, 16)
  }

  /** `parseInt(.., 16)` reads back what `toString(16)` wrote. */
  lemma HexRoundTrip(n: int)
    ensures ParseIntHex(IntToHex(n)) == Some(n)
  {
    var m: nat := if n < 0 then -n else n;
    var digits := ToDigits(m, 16);
    ValueOfToDigits(m, 16);
    HexPrefixOfDigits(digits);
    assert !HasHexMarker(digits) by {
      if |digits| >= 2 { assert IsHexDigit(digits[1]); }
    }
    if n < 0 {
      var s := IntToHex(n);
      assert s[1..] == digits;
      assert LeadingSpaces(s) == 0;
    } else {
      assert LeadingSpaces(digits) == 0;
      assert digits[0..] == digits;
    }
  }
}

=== FILE: scenarios.dfy ===
/** Whole traces run through the replay and the grouping. */
module Scenarios {
  import opened Wrappers
  import opened Text
  import opened Numbers
  import opened Events
  import opened Ledger
  import opened Grouping

  lemma MallocLine64()
    ensures Format(Malloc("0x1000", "0x2004", Some(64))) == "#m:0x1000:0x2004:64"
  {
    assert ToDigits(6, 10) == "6";
    assert ToDigits(64, 10) == "64";
    assert Join(["#m", "0x1000", "0x2004", "64"], ':') == "#m:0x1000:0x2004:64";
  }

  lemma MallocLine32()
    ensures Format(Malloc("0x2000", "0x2004", Some(32))) == "#m:0x2000:0x2004:32"
  {
    assert ToDigits(3, 10) == "3";
    assert ToDigits(32, 10) == "32";
    assert Join(["#m", "0x2000", "0x2004", "32"], ':') == "#m:0x2000:0x2004:32";
  }

  lemma FreeLine()
    ensures Format(Free("0", "0x2010", "0x1000")) == "#f:0:0x2010:0x1000"
  {
    assert Join(["#f", "0", "0x2010", "0x1000"], ':') == "#f:0:0x2010:0x1000";
  }

  lemma ReallocLine()
    ensures Format(Realloc("0x3000", "0x2020", "0x1000", Some(128))) == "#r:0x3000:0x2020:0x1000:128"
  {
    assert ToDigits(1, 10) == "1";
    assert ToDigits(12, 10) == "12";
    assert ToDigits(128, 10) == "128";
    assert Join(["#r", "0x3000", "0x2020", "0x1000", "128"], ':') == "#r:0x3000:0x2020:0x1000:128";
  }

  /** The log text decodes to the listed events. */
  lemma Decodes(es: seq<Event>, log: string)
    requires forall i :: 0 <= i < |es| ==> Writable(es[i])
    requires Log(es) == log
    ensures Analyze(log) == Replay(Init, es)
  {
    ParseLog(es);
  }

  lemma FreedBlockLog()
    ensures Log([Malloc("0x1000", "0x2004", Some(64)), Free("0", "0x2010", "0x1000")])
      == "#m:0x1000:0x2004:64\n#f:0:0x2010:0x1000\n"
  {
    var es := [Malloc("0x1000", "0x2004", Some(64)), Free("0", "0x2010", "0x1000")];
    MallocLine64();
    FreeLine();
    assert es[1..] == [es[1]];
  }

  lemma FreedBlockReplay()
    ensures var st := Replay(Init, [Malloc("0x1000", "0x2004", Some(64)), Free("0", "0x2010", "0x1000")]);
      st.allocs == map[] && st.total == Some(0) && st.warnings == []
  {
    var es := [Malloc("0x1000", "0x2004", Some(64)), Free("0", "0x2010", "0x1000")];
    var s1 := Step(Init, es[0]);
    assert es[1..] == [es[1]];
    assert Replay(Init, es) == Replay(s1, [es[1]]);
    assert Replay(s1, [es[1]]) == Replay(Step(s1, es[1]), []);
  }

  /** A block allocated and then freed leaves nothing behind. */
  lemma FreedBlockIsNotALeak()
    ensures var st := Analyze("#m:0x1000:0x2004:64\n#f:0:0x2010:0x1000\n");
      st.allocs == map[] && st.total == Some(0) && st.warnings == []
  {
    FreedBlockLog();
    Decodes([Malloc("0x1000", "0x2004", Some(64)), Free("0", "0x2010", "0x1000")],
            "#m:0x1000:0x2004:64\n#f:0:0x2010:0x1000\n");
    FreedBlockReplay();
  }

  lemma TwoLeaksLog()
    ensures Log([Malloc("0x1000", "0x2004", Some(64)), Malloc("0x2000", "0x2004", Some(32))])
      == "#m:0x1000:0x2004:64\n#m:0x2000:0x2004:32\n"
  {
    var es := [Malloc("0x1000", "0x2004", Some(64)), Malloc("0x2000", "0x2004", Some(32))];
    MallocLine64();
    MallocLine32();
    assert es[1..] == [es[1]];
  }

  lemma TwoLeaksReplay()
    ensures var st := Replay(Init, [Malloc("0x1000", "0x2004", Some(64)), Malloc("0x2000", "0x2004", Some(32))]);
      && st.allocs == map["0x1000" := Alloc("0x2004", Some(64)), "0x2000" := Alloc("0x2004", Some(32))]
      && st.total == Some(96)
  {
    var es := [Malloc("0x1000", "0x2004", Some(64)), Malloc("0x2000", "0x2004", Some(32))];
    var s1 := Step(Init, es[0]);
    assert es[1..] == [es[1]];
    assert Replay(Init, es) == Replay(s1, [es[1]]);
    assert Replay(s1, [es[1]]) == Replay(Step(s1, es[1]), []);
  }

  /** Two blocks from one call site stay live and count 96 bytes. */
  lemma TwoLeaksOneCallSite()
    ensures var st := Analyze("#m:0x1000:0x2004:64\n#m:0x2000:0x2004:32\n");
      && st.allocs == map["0x1000" := Alloc("0x2004", Some(64)), "0x2000" := Alloc("0x2004", Some(32))]
      && st.total == Some(96)
  {
    TwoLeaksLog();
    Decodes([Malloc("0x1000", "0x2004", Some(64)), Malloc("0x2000", "0x2004", Some(32))],
            "#m:0x1000:0x2004:64\n#m:0x2000:0x2004:32\n");
    TwoLeaksReplay();
  }

  /** ... and the grouping files both under their common call site, with a
      group total of 96 bytes. */
  lemma TwoLeaksGrouped()
    ensures var m := map["0x1000" := Alloc("0x2004", Some(64)), "0x2000" := Alloc("0x2004", Some(32))];
      && Dedupe(m, ["0x1000", "0x2000"]) ==
           [Group("0x2004", [Entry("0x1000", Some(64)), Entry("0x2000", Some(32))])]
      && GroupTotal([Entry("0x1000", Some(64)), Entry("0x2000", Some(32))]) == Some(96)
  {
    var m := map["0x1000" := Alloc("0x2004", Some(64)), "0x2000" := Alloc("0x2004", Some(32))];
    var keys := ["0x1000", "0x2000"];
    assert keys[..1] == ["0x1000"];
    assert keys[..1][..0] == [];
    var g1 := Dedupe(m, keys[..1]);
    assert g1 == [Group("0x2004", [Entry("0x1000", Some(64))])];
    assert m["0x2000"] == Alloc("0x2004", Some(32));
    assert Dedupe(m, keys) == AddEntry(g1, "0x2004", Entry("0x2000", Some(32)));
    assert g1[1..] == [];
    assert AddEntry(g1, "0x2004", Entry("0x2000", Some(32)))
      == [Group("0x2004", [Entry("0x1000", Some(64))] + [Entry("0x2000", Some(32))])];
    assert [Entry("0x1000", Some(64))] + [Entry("0x2000", Some(32))]
      == [Entry("0x1000", Some(64)), Entry("0x2000", Some(32))];
    var es := [Entry("0x1000", Some(64)), Entry("0x2000", Some(32))];
    assert es[..1] == [Entry("0x1000", Some(64))];
    assert es[..1][..0] == [];
  }

  lemma ReallocLog()
    ensures Log([Realloc("0x3000", "0x2020", "0x1000", Some(128))]) == "#r:0x3000:0x2020:0x1000:128\n"
  {
    ReallocLine();
  }

  lemma ReallocReplay()
    ensures var st := Replay(Init, [Realloc("0x3000", "0x2020", "0x1000", Some(128))]);
      && st.allocs == map["0x3000" := Alloc("0x2020", Some(128))]
      && st.total == Some(128)
      && st.warnings == [UntrackedRealloc("0x1000")]
  {
    var e0 := Realloc("0x3000", "0x2020", "0x1000", Some(128));
    assert Replay(Init, [e0]) == Replay(Step(Init, e0), []);
  }

  /** A realloc from an untracked pointer warns and still records the new
      block. */
  lemma ReallocFromUntracked()
    ensures var st := Analyze("#r:0x3000:0x2020:0x1000:128\n");
      && st.allocs == map["0x3000" := Alloc("0x2020", Some(128))]
      && st.total == Some(128)
      && st.warnings == [UntrackedRealloc("0x1000")]
  {
    var log := "#r:0x3000:0x2020:0x1000:128\n";
    var es := [Realloc("0x3000", "0x2020", "0x1000", Some(128))];
    ReallocLog();
    Decodes(es, log);
    ReallocReplay();
    assert Analyze(log) == Replay(Init, es);
  }
}

=== FILE: text.dfy ===
/** Character classes and string splitting, with the meaning JavaScript
    gives them in `String.prototype.split`, regular expressions and the
    white-space strip inside `Number`. */
module Text {

  /** The characters matched by `\s` in a JavaScript regular expression,
      which are also the ones `Number(...)` and `parseInt` skip:
      white space (tab, vertical tab, form feed, space, no-break space,
      byte order mark and the Unicode space separators) and line
      terminators (line feed, carriage return, line and paragraph separator). */
  predicate IsSpace(c: char) {
    if c < '\U{00A0}' then c == ' ' || '\t' <= c <= '\r'
    else
      || c == '\U{00A0}' || c == '\U{1680}' || ('\U{2000}' <= c <= '\U{200A}')
      || c == '\U{2028}' || c == '\U{2029}' || c == '\U{202F}' || c == '\U{205F}'
      || c == '\U{3000}' || c == '\U{FEFF}'
  }

  predicate IsDecDigit(c: char) {
    '0' <= c <= '9'
  }

  /** A hexadecimal digit in either case, as `parseInt(s, 16)` accepts. */
  predicate IsHexDigit(c: char) {
    IsDecDigit(c) || 'a' <= c <= 'f' || 'A' <= c <= 'F'
  }

  /** A digit of the character class `[0-9a-f]`. */
  predicate IsLowerHexDigit(c: char) {
    IsDecDigit(c) || 'a' <= c <= 'f'
  }

  predicate AllSpace(s: string) {
    forall i {:trigger IsSpace(s[i])} :: 0 <= i < |s| ==> IsSpace(s[i])
  }

  predicate StartsWith(s: string, prefix: string) {
    |prefix| <= |s| && s[..|prefix|] == prefix
  }

  /** `s.substr(n)`: the suffix from index `n`, or the empty string when `s`
      is shorter. */
  function Substr(s: string, n: nat): (r: string)
    ensures |s| <= n ==> r == ""
    ensures n < |s| ==> r == s[n..]
  {
    if n <= |s| then s[n..] else ""
  }

  /** The number of white-space characters `s` starts with. */
  function LeadingSpaces(s: string): (n: nat)
    ensures n <= |s|
    ensures AllSpace(s[..n])
    ensures n < |s| ==> !IsSpace(s[n])
  {
    if |s| == 0 || !IsSpace(s[0]) then 0
    else
      var n := 1 + LeadingSpaces(s[1..]);
      assert s[..n] == [s[0]] + s[1..][..n - 1];
      n
  }

  /** The number of white-space characters `s` ends with. */
  function TrailingSpaces(s: string): (n: nat)
    ensures n <= |s|
  {
    if |s| == 0 || !IsSpace(s[|s| - 1]) then 0
    else 1 + TrailingSpaces(s[..|s| - 1])
  }

  /** The white space `Number` strips from both ends of its argument before
      reading it, the same strip as `s.trim()`. */
  function Trim(s: string): (r: string)
    ensures |r| <= |s|
  {
    var t := s[LeadingSpaces(s)..];
    t[..|t| - TrailingSpaces(t)]
  }

  /** A string with no white space at either end is its own trim. */
  lemma TrimUnpadded(s: string)
    requires s == [] || (!IsSpace(s[0]) && !IsSpace(s[|s| - 1]))
    ensures Trim(s) == s
  {
  }

  /** `s.split(c)` for a set of single-character delimiters `d`: the
      maximal delimiter-free pieces of `s`, in order, empty pieces included. */
  function SplitOn(s: string, d: set<char>): (r: seq<string>)
    ensures |r| >= 1
    ensures forall i, j :: 0 <= i < |r| && 0 <= j < |r[i]| ==> r[i][j] !in d
    decreases |s|
  {
    if |s| == 0 then [""]
    else
      var rest := SplitOn(s[1..], d);
      if s[0] in d then [""] + rest
      else [[s[0]] + rest[0]] + rest[1..]
  }

  /** Pieces joined back together with the single separator `c`. */
  function Join(parts: seq<string>, c: char): string
    requires |parts| >= 1
    decreases |parts|
  {
    if |parts| == 1 then parts[0] else parts[0] + [c] + Join(parts[1..], c)
  }

  predicate NoneIn(s: string, d: set<char>) {
    forall i :: 0 <= i < |s| ==> s[i] !in d
  }

  /** Splitting on one character and joining with it gives the string back. */
  lemma {:induction false} SplitJoin(s: string, c: char)
    ensures Join(SplitOn(s, {c}), c) == s
    decreases |s|
  {
    if |s| > 0 {
      var rest := SplitOn(s[1..], {c});
      SplitJoin(s[1..], c);
      if s[0] == c {
        assert s == [c] + s[1..];
      } else {
        if |rest| == 1 {
          assert s == [s[0]] + s[1..];
        } else {
          assert Join(rest, c) == rest[0] + [c] + Join(rest[1..], c);
          assert s == [s[0]] + s[1..];
        }
      }
    }
  }

  /** A string without delimiters is a single piece. */
  lemma {:induction false} SplitOnNone(s: string, d: set<char>)
    requires NoneIn(s, d)
    ensures SplitOn(s, d) == [s]
    decreases |s|
  {
    if |s| > 0 {
      SplitOnNone(s[1..], d);
      assert s == [s[0]] + s[1..];
    }
  }

  /** Splitting distributes over a delimiter placed between two strings. */
  lemma {:induction false} SplitOnAppend(a: string, c: char, b: string, d: set<char>)
    requires c in d
    ensures SplitOn(a + [c] + b, d) == SplitOn(a, d) + SplitOn(b, d)
    decreases |a|
  {
    var s := a + [c] + b;
    if |a| == 0 {
      assert s[1..] == b;
    } else {
      assert s[0] == a[0];
      assert s[1..] == a[1..] + [c] + b;
      SplitOnAppend(a[1..], c, b, d);
    }
  }
}

=== FILE: wrappers.dfy ===
/** Optional values. `None` stands for JavaScript's `NaN` wherever a number
    is expected and could not be produced. */
module Wrappers {

  datatype Option<+T> = None | Some(value: T) {

    /** The value, or `default` when there is none. */
    function GetOr(default: T): T {
      match this
      case Some(v) => v
      case None => default
    }
  }
}
